=== FILE: README.md ===
# Clean-Qoder reset engine: a verified model

Clean-Qoder is a desktop tool that resets the local identity of the Qoder editor: the
telemetry and device identifiers in `User/globalStorage/storage.json`, the identifier
files in the data directory, caches, login state and, optionally, the chat history.
This project models the decision logic of its reset engine in Dafny and proves what each
decision keeps and what it removes:

- `Locations`: where the data directory is (`get_qoder_data_dir`), as pathlib renders it.
- `IdentityRecord` and `RecordStages`: storage.json as an insertion-ordered key/value map,
  and the four stages that rewrite or strip it:
  - the full reset's telemetry rewrite;
  - the login-identity cleanup;
  - the hardware-fingerprint reset;
  - the chat clearing.

  Also the order in which the full reset runs these stages.
- `IdFiles`: the rotation of the identifier files (`machineid`, `deviceid`, ...) by both resets.
- `DataDirSweeps`: the deletion choices inside the data directory:
  - the storage directories of the full reset;
  - the `SharedClientCache/index` subset the advanced identity cleanup keeps under chat
    preservation, and what the full reset's earlier cache removal leaves of it;
  - the suspicious-extension sweep;
  - the hidden-entry sweep.
- `CacheSweeps`: the allow/deny guards of `clear_system_level_caches` per operating system,
  and the last step of the super-deep cleanup.
- `ProcessListing`: how `check_qoder_running` turns tool output into a PID list:
  - the one-line `csv.reader` parse of `tasklist` rows;
  - `wmic` `ProcessId=` lines;
  - `pgrep` lines and the `ps` confirmation;
  - the search order, de-duplication and the running flag.
- `Text`, `Common`, `Identifiers`: the Python string operations the engine relies on
  (`lower`, `in`, `strip`, `split`, `isdigit`, `str(int)`), option and duplicate-freedom,
  and the uuid4/SHA-256 text shapes.

Generated values (uuid4 texts, SHA-256 digests, random version strings,
`platform.machine()`) are parameters. The home directory, the environment, directory
listings, which writes fail and the output of every external tool are parameters too.
The filesystem is a set of entries or a map from names to contents. Every sweep is a
filter over that set.

In these places the code does less than a reader might expect; the model follows the
code:

- The full reset's keyword strip in step 2 deletes `telemetry.devDeviceId`,
  `telemetry.sessionId` and `deviceId`, which the same step wrote a moment earlier
  (`FullResetDeletesFreshIds`). The later hardware reset writes them again, and then the
  chat clearing deletes `telemetry.sessionId` once more, unless chat is preserved.
- Identifier rotation writes new values every time, so it is not idempotent
  (`RotationNotIdempotent`).
- On POSIX systems the PIDs read from `pgrep` are not checked for digits
  (`PosixKeepsNonNumericPid`).
- A fuzzy `pgrep` match whose `ps` check raises is kept (`FuzzyKeepsUnverifiedPid`).
- The data directory uses the macOS layout on every system other than Windows.
- `clear_system_level_caches` treats every system other than Darwin and Windows as Linux.
- Chat preservation does not keep the chat index in the full reset. The full reset is the
  only caller that passes `preserve_chat=True` to the advanced identity cleanup
  (Clean-Qoder.py:2098), and its step 3 has already removed all of `SharedClientCache`
  (Clean-Qoder.py:1992). The chat-keeping index plan at Clean-Qoder.py:2150-2172 therefore
  runs only when that removal failed (`IndexAfterFullReset`).

## Model

| member | source | states |
|---|---|---|
| Locations.DataDir | Clean-Qoder.py:938-948 | the data directory starts with the home directory and ends with the separator followed by "Qoder" |
| Locations.UnderDataDirMentionsQoder | Clean-Qoder.py:938-948 | every path that starts with the data directory contains "qoder" once lower-cased |
| Text.AnyInOrderIff | Clean-Qoder.py:2868-2870 | running an any() generator keyword by keyword, stopping at the first hit, answers whether the text contains some keyword |
| IdentityRecord.PutAll | Clean-Qoder.py:1940-1959 | after the assignments every table key holds its table value, the key set grows by exactly the table keys, and every other key keeps its value |
| IdentityRecord.PutAllKeyOrder | Clean-Qoder.py:2497-2499 | keys already present keep their places and the table keys that were absent follow them, in table order |
| IdentityRecord.PutAllOrder | Clean-Qoder.py:2497-2499 | the key order after the assignments depends only on the starting order and the table's keys, not on the values |
| IdentityRecord.PutAllIdle | Clean-Qoder.py:2497-2499 | assigning values the record already holds leaves the record unchanged |
| IdentityRecord.RemoveMatching | Clean-Qoder.py:1966-1978 | the removed keys are exactly the present, non-exempt keys whose lower-cased form contains a keyword; kept keys keep their values and their relative order; kept plus removed equals the original size |
| IdentityRecord.KeptKeysInOrder | Clean-Qoder.py:1966-1978 | the keys that survive the strip are a subsequence of the original key order |
| IdentityRecord.RemoveNothing | Clean-Qoder.py:1632-1642 | nothing is removed exactly when no key matches, and then the record is unchanged |
| IdentityRecord.RemoveCount | Clean-Qoder.py:1639-1639 | the removed count equals the number of distinct matching keys |
| RecordStages.LoginCleanup | Clean-Qoder.py:1614-1645 | afterwards no key contains a login keyword, every other key keeps its value, the counter grows by the number of matching keys, the surviving keys keep their order, the file is rewritten exactly when one matched, and a missing or non-object file is left alone |
| RecordStages.LoginCleanupSettles | Clean-Qoder.py:1623-1642 | a second login cleanup neither rewrites the file nor counts anything |
| RecordStages.FullResetStorage | Clean-Qoder.py:1926-1984 | a non-object file aborts the reset; otherwise a key is present afterwards exactly when it was present or written and, unless chat is preserved, contains no full-reset keyword; written keys hold their new values and other keys keep theirs |
| RecordStages.HardwareResetStorage | Clean-Qoder.py:2457-2522 | every table key holds its new value; another key survives exactly when it contains no hardware keyword, keeping its value; the counter grows by the table size plus the removed count |
| RecordStages.HardwareResetSettles | Clean-Qoder.py:2497-2519 | a second hardware reset with the same identifiers leaves the record as the first left it, and counts only the table entries |
| RecordStages.HardwareKeepsMachineId | Clean-Qoder.py:2497-2514 | "machineId" contains the keyword "mac" but, as a table key, keeps its new value |
| RecordStages.ClearChatStorage | Clean-Qoder.py:2336-2360 | the keys removed are exactly those containing chat, conversation, history or session; the rest keep their values and their order; the counter grows by one when any key went, not by the number of keys |
| RecordStages.ClearChatSettles | Clean-Qoder.py:2343-2357 | a second chat clearing finds nothing to remove |
| RecordStages.FullResetRecord | Clean-Qoder.py:2096-2118 | the storage.json stages of the full reset in program order abort exactly when the file is not an object, and leave a missing file missing |
| RecordStages.FullResetKey | Clean-Qoder.py:1926-2118 | after the full reset a key is present exactly when it survives each stage's filter in turn, and a key outside the hardware table keeps its original value |
| RecordStages.FullResetHardwareValue | Clean-Qoder.py:2096-2118 | every hardware-table key still present after the full reset holds its hardware-reset value |
| RecordStages.TelemetryValuesOverwritten | Clean-Qoder.py:1926-2118 | the final record does not depend on the telemetry values of step 2, because every surviving telemetry key is rewritten later |
| RecordStages.FullResetDeletesFreshIds | Clean-Qoder.py:1940-1978 | without chat preservation, step 2 deletes the telemetry.devDeviceId, telemetry.sessionId and deviceId it has just written |
| RecordStages.FullResetKeepsMachineIds | Clean-Qoder.py:1940-1978 | after step 2 without chat preservation, telemetry.machineId and machineId hold the new hash and telemetry.sqmId the new id |
| RecordStages.FullResetSmallRecord | Clean-Qoder.py:1940-1984 | on the record {telemetry.machineId: abc, other: x}, step 2 keeps other, replaces the machine id and leaves no device or session id |
| IdFiles.RotatedSpec | Clean-Qoder.py:2443-2455 | a file exists afterwards exactly when it existed or its open succeeded; a file whose write succeeded holds its new id, one whose write failed after the truncating open is empty, one whose open failed is unchanged, and every other file is unchanged |
| IdFiles.RotateIds | Clean-Qoder.py:2443-2455 | the per-file guarded write loop yields the rotated directory and counts exactly the writes that raised nothing |
| IdFiles.HardwareIdFiles | Clean-Qoder.py:2438-2455 | the hardware reset's eleven identifier files are rotated, and the count is the number of them whose write raised nothing, at most eleven |
| IdFiles.RotationForgetsPrevious | Clean-Qoder.py:2443-2455 | rotating twice is the same as rotating once with the second values |
| IdFiles.RotationNotIdempotent | Clean-Qoder.py:1905-1924 | a second rotation with a different first id changes the directory |
| IdFiles.WriteInOrder | Clean-Qoder.py:1905-1924 | a sequence of unguarded writes completes exactly when none fails; the names before the first failure hold their new ids, the failing file is empty when its open succeeded, and no other file changes |
| IdFiles.FullResetIdFiles | Clean-Qoder.py:1905-1924 | the full reset's six writes complete exactly when none fails; the names before the first failure hold their new ids, the failing file is empty when the failure came after its open, and no other file changes |
| DataDirSweeps.StorageDirsToRemove | Clean-Qoder.py:2053-2082 | "Local Storage" is removed exactly when chat is not preserved; every other listed directory is removed either way |
| DataDirSweeps.PurgeListed | Clean-Qoder.py:2084-2092 | the existing listed directories whose removal does not fail are gone, nothing else is, and the count is of those removals |
| DataDirSweeps.IndexPlanFor | Clean-Qoder.py:2150-2172 | in the advanced identity cleanup taken alone, without chat preservation the whole index goes; with it an entry is kept exactly when it is a file or a directory whose lower-cased name contains "chat" |
| DataDirSweeps.IndexAfterFullReset | Clean-Qoder.py:1989-2010 | after the full reset no index entry is left unless step 3 failed to remove `SharedClientCache` and chat is preserved; then exactly the files and chat-named directories are left |
| DataDirSweeps.IndexLoopFollowsPlan | Clean-Qoder.py:2163-2166 | the iterdir loop over the index removes exactly the entries the plan chooses under chat preservation |
| DataDirSweeps.Suffix | Clean-Qoder.py:3143-3143 | a suffix is empty or a dot and at least one further character, without another dot, ending the name; it is non-empty exactly when the name does not end with a dot and has a dot after its first character |
| DataDirSweeps.ExtensionSweep | Clean-Qoder.py:3140-3160 | a file is deleted only when its suffix is suspicious, its name holds no protected keyword, its path contains the data directory and its name or directory mentions an app token |
| DataDirSweeps.ExtensionSweepInsideDataDir | Clean-Qoder.py:3145-3154 | under the data directory the path and app-token conditions always hold, so deletion depends on the suffix and the protected keywords alone |
| DataDirSweeps.ExtensionSweepByName | Clean-Qoder.py:3140-3154 | over a walk of the data directory the sweep deletes exactly the files with a suspicious suffix and no protected keyword |
| DataDirSweeps.SweepHiddenEntries | Clean-Qoder.py:3167-3190 | an entry survives exactly when it is not a hidden file other than .gitignore/.gitkeep, not a hidden directory other than .git, and not inside such a directory |
| CacheSweeps.MacCacheSelectsIff | Clean-Qoder.py:2815-2830 | the pattern loop cleans a name exactly when it contains some lower-cased allow pattern and no deny keyword |
| CacheSweeps.WindowsCacheSelects | Clean-Qoder.py:2866-2870 | the two any() generators select a name exactly when it contains an allow keyword and no deny keyword |
| CacheSweeps.LinuxCacheSelects | Clean-Qoder.py:2899-2903 | the two any() generators select a name exactly when it contains an allow keyword and no deny keyword |
| CacheSweeps.MacSystemSweep | Clean-Qoder.py:2805-2836 | an entry of the four macOS cache directories is deleted exactly when the pattern loop would clean its name |
| CacheSweeps.WindowsSystemSweep | Clean-Qoder.py:2862-2875 | an entry of the two Windows temp directories is deleted exactly when the two any() guards select its name |
| CacheSweeps.LinuxSystemSweep | Clean-Qoder.py:2886-2906 | an entry of the Linux cache directories is deleted exactly when the two any() guards select its name |
| CacheSweeps.SystemCacheSweep | Clean-Qoder.py:2788-2903 | on each system an entry of its cache directories is deleted exactly when its name matches that system's allow list and no keyword of its deny list |
| CacheSweeps.SuperDeepSweep | Clean-Qoder.py:3236-3290 | the last super-deep step deletes exactly the entries of its directories whose name contains a token, with no deny list, and nothing outside macOS and Windows; on macOS the data-directory exclusion removes nothing from the choice |
| CacheSweeps.SuperDeepBypassesDenyList | Clean-Qoder.py:3241-3256 | "Qoder.SystemCache" in the user cache directory is deleted by the super-deep step although the system-cache guard refuses it |
| ProcessListing.CsvQuotedRoundTrip | Clean-Qoder.py:1166-1168 | a row of fully quoted fields reads back as the same fields, whatever they contain |
| ProcessListing.CsvRejectsBareCarriageReturn | Clean-Qoder.py:1166-1168 | the line "a", carriage return, "b" does not parse: a carriage return inside an unquoted field must end the line |
| ProcessListing.TasklistLinePid | Clean-Qoder.py:1161-1175 | a row yields only an all-digit PID, and only when its first record has two fields or more, its quote-stripped lower-cased first field is a known image name and the PID is its quote-stripped second field |
| ProcessListing.TasklistRowPid | Clean-Qoder.py:1161-1175 | a quoted tasklist row yields its PID exactly when the lower-cased image name is a known name and the PID is all digits |
| ProcessListing.TasklistSearch | Clean-Qoder.py:1136-1158 | the result is that of the first name, in the order "Qoder.exe" then the known names, whose run fails or finds a listing; when no run does, it is the last name's result; it fails or finds a listing exactly when some name does |
| ProcessListing.WmicLinePid | Clean-Qoder.py:1190-1195 | a line yields only an all-digit PID, and only when it starts with "ProcessId=" |
| ProcessListing.WmicRoundTrip | Clean-Qoder.py:1190-1195 | "ProcessId=" followed by str(n) reads back str(n) |
| ProcessListing.WmicIgnoresAfterSecondEquals | Clean-Qoder.py:1192-1193 | only the text up to a second '=' is read: "ProcessId=12=junk" yields "12" |
| ProcessListing.WmicSearch | Clean-Qoder.py:1178-1197 | the result is all digits; it is the parse of the first name whose successful run yields a PID, when no earlier run raised; it is empty exactly when there is no such name |
| ProcessListing.TasklistPreemptsWmic | Clean-Qoder.py:1137-1200 | once the tasklist search raises or yields a PID, the wmic results cannot change the PIDs collected |
| ProcessListing.PgrepPids | Clean-Qoder.py:1234-1235 | no PID read from pgrep is empty |
| ProcessListing.PgrepRoundTrip | Clean-Qoder.py:1234-1235 | output with one numeric PID per line reads back those PIDs in order |
| ProcessListing.FuzzyConfirmed | Clean-Qoder.py:1241-1259 | a fuzzy match is kept exactly when ps raises, or succeeds with output naming Qoder |
| ProcessListing.ExactPreemptsFuzzy | Clean-Qoder.py:1227-1262 | once pgrep -x raises or succeeds, the pgrep -f and ps results cannot change the PIDs collected |
| ProcessListing.Dedup | Clean-Qoder.py:1264-1264 | the result has no duplicates and holds exactly the non-empty PIDs of the input |
| ProcessListing.CheckRunning | Clean-Qoder.py:1264-1273 | Qoder counts as running exactly when the PID list is non-empty; the list is duplicate-free and holds exactly the non-empty candidates |
| ProcessListing.WindowsPidsAreDigits | Clean-Qoder.py:1161-1197 | on Windows every reported PID is all digits |
| ProcessListing.PosixKeepsNonNumericPid | Clean-Qoder.py:1226-1235 | on other systems a non-numeric pgrep line is reported as a PID |
| ProcessListing.FuzzyKeepsUnverifiedPid | Clean-Qoder.py:1257-1259 | a fuzzy match whose ps check raises is reported as running |

## Left out

- The PyQt interface, translations, message boxes and logging: presentation only.
- Running, terminating and escalating processes (`subprocess`, `kill`, `taskkill`, sleeps):
  process control and timing. `terminate_qoder_process` (Clean-Qoder.py:1307-1453) re-queries
  after a pause and counts the tools' reported successes; nothing in the program calls it.
  `close_qoder` only reports what `check_qoder_running` finds.
- `ProcessListing.WindowsCandidates`, `ProcessListing.PosixCandidates`: the order of the
  fallback chains is stated by the function bodies; the contracts only state that a later tool
  cannot matter once an earlier one has answered (`ProcessListing.TasklistPreemptsWmic`,
  `ProcessListing.ExactPreemptsFuzzy`).
- The `psutil` fallback of the Windows search is not part of this model. It reads live
  process tables, so `ProcessListing.Candidates` ends with what `tasklist` and `wmic` found.
- `ProcessListing.CheckRunning`: on Windows the PIDs the `psutil` fallback would add are not
  modelled, so the list can be shorter than the program's.
- The real filesystem traversal, `rmtree`/`unlink` failures inside the sweeps, `chmod` and
  `chflags`: every sweep gives the set of entries it chooses.
- Failure injection is modelled only for the identifier-file writes and the storage
  directory removals. An identifier write fails either at `open` (the file is left as it
  was) or after the truncating `open` (the file is left empty).
- `ProcessListing.TasklistSearch`, `ProcessListing.WmicSearch`: every tool run is a function
  of the image name, so the repeated `qoder.exe` queries return the same result each time.
  A process that starts or stops between two runs is not modelled.
- `uuid4`, SHA-256 and MD5: their results are parameters of the `Uuid` and `Digest` shapes.
- The fake hardware profile, browser-fingerprint obfuscation, decoy files and
  `generate_system_version`: they rest on random choices and float formatting.
- The standalone `reset_machine_id` and `reset_telemetry` buttons, network-trace cleanup,
  and the status check.
- The fixed file lists of steps 3 and 4 of the full reset: unconditional removals
  with no selection logic. Of step 3 only the removal of `SharedClientCache` is modelled,
  by `DataDirSweeps.IndexAfterFullReset`. Step 5's removal is modelled by `DataDirSweeps.PurgeListed`.
- JSON parsing and serialisation, including indentation and `ensure_ascii=False`. A record
  is read as its key order and values. A file that is not a JSON object is `Malformed`.
- `str.lower()` outside ASCII: lower-casing is exact for every character whose lower-case
  form contains an ASCII character, which is all the program's ASCII keywords can observe.
- `ProcessListing.TasklistLinePid`, `ProcessListing.WmicLinePid`: `isdigit` accepts ASCII
  digits only, while Python's `str.isdigit()` also accepts other Unicode digits such as
  '²' or '１'. `tasklist` and `wmic` print PIDs in ASCII digits; a PID written in other
  Unicode digits would be reported by the program but not by the model, and
  `ProcessListing.WindowsPidsAreDigits` is a statement about ASCII digits.
- `csv` NUL handling and the field-size limit; `pathlib` normalisation beyond joining and the
  rendering of the empty path.
- The number of entries each sweep deletes (`cleaned_count`): only log text.

=== FILE: cache_sweeps.dfy ===
/**
 * The sweeps outside the data directory: `clear_system_level_caches`, which deletes entries
 * of a few per-system cache directories behind an allow list and a deny list, and the last
 * step of the super-deep cleanup, which deletes entries of other user directories behind an
 * allow list only. A directory's contents are given as the set of its entries' names.
 */
module CacheSweeps {
  import opened Text
  import opened Locations

  /** The process environment, of which only a few variables are read. */
  type Env = map<string, string>

  /** `os.environ.get(name, '')`. */
  function Getenv(env: Env, name: string): string {
    if name in env then env[name] else ""
  }

  /** An entry of a swept directory. */
  datatype Entry = Entry(dir: string, name: string)

  /** The entries a sweep deletes from the directories `dirs`, given each existing directory's
      listing and the name test. */
  function SweepDirs(dirs: seq<string>, listing: map<string, set<string>>, selects: string -> bool): (gone: set<Entry>)
    ensures forall e :: e in gone <==> e.dir in dirs && e.dir in listing && e.name in listing[e.dir] && selects(e.name)
  {
    set d, n | d in dirs && d in listing && n in listing[d] && selects(n) :: Entry(d, n)
  }

  /* ---------------------------------------------------------------- macOS */

  /** The allow patterns of the macOS branch, as written; each is lower-cased before use. */
  const MacCachePatterns: seq<string> := [
    "com.microsoft.VSCode", "qoder", "Qoder", "QODER", "vscode", "VSCode", "Visual Studio Code",
    "Electron", "electron"]

  const MacDenyKeywords: seq<string> := ["system", "apple", "safari", "chrome", "firefox", "mail", "finder"]

  /** The pattern loop of the macOS branch over the lower-cased name: at the first pattern the
      name contains, clean if no deny keyword occurs; otherwise try the next pattern. */
  function MacPatternLoop(nameLower: string, patterns: seq<string>): bool
    decreases |patterns|
  {
    if |patterns| == 0 then false
    else if Contains(nameLower, Lower(patterns[0])) && !ContainsAny(nameLower, MacDenyKeywords) then true
    else MacPatternLoop(nameLower, patterns[1..])
  }

  predicate MacCacheSelects(name: string) {
    MacPatternLoop(Lower(name), MacCachePatterns)
  }

  /** The macOS test cleans a name exactly when it contains some allow pattern and no deny
      keyword, case-insensitively. */
  lemma MacCacheSelectsIff(name: string)
    ensures MacCacheSelects(name) <==>
      (exists p | p in MacCachePatterns :: Contains(Lower(name), Lower(p))) && !MatchesAny(name, MacDenyKeywords)
  {
    MacPatternLoopIff(Lower(name), MacCachePatterns);
  }

  lemma {:induction false} MacPatternLoopIff(nameLower: string, patterns: seq<string>)
    ensures MacPatternLoop(nameLower, patterns) <==>
      (exists p | p in patterns :: Contains(nameLower, Lower(p))) && !ContainsAny(nameLower, MacDenyKeywords)
    decreases |patterns|
  {
    if |patterns| > 0 {
      MacPatternLoopIff(nameLower, patterns[1..]);
      if Contains(nameLower, Lower(patterns[0])) {
        assert patterns[0] in patterns;
      }
      if p :| p in patterns[1..] && Contains(nameLower, Lower(p)) {
        assert p in patterns;
      }
      assert forall p | p in patterns :: p == patterns[0] || p in patterns[1..];
    }
  }

  /** The four macOS cache directories. */
  function MacCacheDirs(home: string): seq<string> {
    [JoinPath(home, "Library/Caches", '/'), JoinPath(home, "Library/HTTPStorages", '/'),
     JoinPath(home, "Library/WebKit", '/'), JoinPath(home, "Library/Application Support/CrashReporter", '/')]
  }

  /* ---------------------------------------------------------------- Windows */

  const WindowsAllow: seq<string> := ["qoder", "vscode", "code-", "electron"]
  const WindowsDeny: seq<string> := ["system", "microsoft", "windows", "temp"]

  /** The Windows test as the branch runs it on the lower-cased name: an allow keyword, then
      no deny keyword. */
  function WindowsCacheSelects(name: string): (selected: bool)
    ensures selected <==> MatchesAny(name, WindowsAllow) && !MatchesAny(name, WindowsDeny)
  {
    AnyInOrderIff(Lower(name), WindowsAllow);
    AnyInOrderIff(Lower(name), WindowsDeny);
    AnyInOrder(Lower(name), WindowsAllow) && !AnyInOrder(Lower(name), WindowsDeny)
  }

  /** `Path(TEMP)` and `Path(LOCALAPPDATA) / "Temp"`. An unset variable reads as "", and
      `Path('')` is the current directory. */
  function WindowsCacheDirs(env: Env): (dirs: seq<string>)
    ensures |dirs| == 2
    ensures "TEMP" !in env ==> dirs[0] == "."
  {
    [PathText(Getenv(env, "TEMP")), JoinPath(Getenv(env, "LOCALAPPDATA"), "Temp", '\\')]
  }

  /* ---------------------------------------------------------------- Linux and the rest */

  const LinuxAllow: seq<string> := ["qoder", "vscode", "code", "electron"]
  const LinuxDeny: seq<string> := ["dbus", "systemd", "pulse", "gtk"]

  /** The Linux test as the branch runs it on the lower-cased name. */
  function LinuxCacheSelects(name: string): (selected: bool)
    ensures selected <==> MatchesAny(name, LinuxAllow) && !MatchesAny(name, LinuxDeny)
  {
    AnyInOrderIff(Lower(name), LinuxAllow);
    AnyInOrderIff(Lower(name), LinuxDeny);
    AnyInOrder(Lower(name), LinuxAllow) && !AnyInOrder(Lower(name), LinuxDeny)
  }

  function LinuxCacheDirs(home: string): seq<string> {
    [JoinPath(home, ".cache", '/'), JoinPath(home, ".config", '/'), JoinPath(home, ".local/share", '/')]
  }

  /* ---------------------------------------------------------------- the system-cache sweep */

  /** The macOS branch: entries of its four cache directories that contain an allow pattern
      and no deny keyword. */
  function MacSystemSweep(home: string, listing: map<string, set<string>>): (gone: set<Entry>)
    ensures forall e :: e in gone <==>
      && e.dir in MacCacheDirs(home) && e.dir in listing && e.name in listing[e.dir]
      && (exists p | p in MacCachePatterns :: Contains(Lower(e.name), Lower(p)))
      && !MatchesAny(e.name, MacDenyKeywords)
  {
    forall n ensures MacCacheSelects(n) <==>
      (exists p | p in MacCachePatterns :: Contains(Lower(n), Lower(p))) && !MatchesAny(n, MacDenyKeywords)
    {
      MacCacheSelectsIff(n);
    }
    SweepDirs(MacCacheDirs(home), listing, MacCacheSelects)
  }

  /** The Windows branch: entries of the two temporary directories. */
  function WindowsSystemSweep(env: Env, listing: map<string, set<string>>): (gone: set<Entry>)
    ensures forall e :: e in gone <==>
      && e.dir in WindowsCacheDirs(env) && e.dir in listing && e.name in listing[e.dir]
      && MatchesAny(e.name, WindowsAllow) && !MatchesAny(e.name, WindowsDeny)
  {
    SweepDirs(WindowsCacheDirs(env), listing, WindowsCacheSelects)
  }

  /** The Linux branch: entries of the three user cache and configuration directories. */
  function LinuxSystemSweep(home: string, listing: map<string, set<string>>): (gone: set<Entry>)
    ensures forall e :: e in gone <==>
      && e.dir in LinuxCacheDirs(home) && e.dir in listing && e.name in listing[e.dir]
      && MatchesAny(e.name, LinuxAllow) && !MatchesAny(e.name, LinuxDeny)
  {
    SweepDirs(LinuxCacheDirs(home), listing, LinuxCacheSelects)
  }

  /** `clear_system_level_caches`: the macOS branch on Darwin, the Windows branch on Windows
      and the Linux branch on every other system. Failures are logged and skipped; the model
      gives the entries chosen for deletion. */
  function SystemCacheSweep(os: OsFamily, home: string, env: Env, listing: map<string, set<string>>): (gone: set<Entry>)
    ensures os.Darwin? ==> forall e :: e in gone <==>
      && e.dir in MacCacheDirs(home) && e.dir in listing && e.name in listing[e.dir]
      && (exists p | p in MacCachePatterns :: Contains(Lower(e.name), Lower(p)))
      && !MatchesAny(e.name, MacDenyKeywords)
    ensures os.Windows? ==> forall e :: e in gone <==>
      && e.dir in WindowsCacheDirs(env) && e.dir in listing && e.name in listing[e.dir]
      && MatchesAny(e.name, WindowsAllow) && !MatchesAny(e.name, WindowsDeny)
    ensures !os.Darwin? && !os.Windows? ==> forall e :: e in gone <==>
      && e.dir in LinuxCacheDirs(home) && e.dir in listing && e.name in listing[e.dir]
      && MatchesAny(e.name, LinuxAllow) && !MatchesAny(e.name, LinuxDeny)
  {
    if os.Darwin? then MacSystemSweep(home, listing)
    else if os.Windows? then WindowsSystemSweep(env, listing)
    else LinuxSystemSweep(home, listing)
  }

  /* ---------------------------------------------------------------- super-deep cleanup, step 6 */

  const SuperDeepMacTokens: seq<string> := ["qoder", "vscode", "com.microsoft.vscode", "electron"]
  const SuperDeepWindowsTokens: seq<string> := ["qoder", "vscode", "electron"]

  /** The macOS directories of the last super-deep step. */
  function SuperDeepMacDirs(home: string): seq<string> {
    [JoinPath(home, "Library/Caches", '/'), JoinPath(home, "Library/Application Support/com.apple.sharedfilelist", '/')]
  }

  function SuperDeepWindowsDirs(env: Env): seq<string> {
    [JoinPath(Getenv(env, "LOCALAPPDATA"), "Temp", '\\'),
     JoinPath(JoinPath(JoinPath(Getenv(env, "APPDATA"), "Microsoft", '\\'), "Windows", '\\'), "Recent", '\\')]
  }

  /** The entries a sweep deletes from the directories `dirs` other than `skipped`. */
  function SweepDirsExcept(dirs: seq<string>, skipped: string, listing: map<string, set<string>>, selects: string -> bool): (gone: set<Entry>)
    ensures forall e :: e in gone <==>
      e.dir in dirs && e.dir != skipped && e.dir in listing && e.name in listing[e.dir] && selects(e.name)
  {
    set d, n | d in dirs && d != skipped && d in listing && n in listing[d] && selects(n) :: Entry(d, n)
  }

  /** Step 6 of the super-deep cleanup: on macOS, entries of its two directories other than
      the data directory whose lower-cased name contains a token; on Windows, likewise for its
      two directories; nothing elsewhere. No deny list applies, and on macOS the exclusion of
      the data directory never removes anything from the choice. */
  function SuperDeepSweep(os: OsFamily, home: string, env: Env, listing: map<string, set<string>>): (gone: set<Entry>)
    requires |home| > 0
    ensures os.Darwin? ==> forall e :: e in gone <==>
      && e.dir in SuperDeepMacDirs(home) && e.dir != DataDir(os, home) && e.dir in listing
      && e.name in listing[e.dir] && MatchesAny(e.name, SuperDeepMacTokens)
    ensures os.Darwin? ==> forall e :: e in gone <==>
      && e.dir in SuperDeepMacDirs(home) && e.dir in listing
      && e.name in listing[e.dir] && MatchesAny(e.name, SuperDeepMacTokens)
    ensures os.Windows? ==> forall e :: e in gone <==>
      && e.dir in SuperDeepWindowsDirs(env) && e.dir in listing
      && e.name in listing[e.dir] && MatchesAny(e.name, SuperDeepWindowsTokens)
    ensures !os.Darwin? && !os.Windows? ==> gone == {}
  {
    SuperDeepNeverSkips(home);
    if os.Darwin? then
      SweepDirsExcept(SuperDeepMacDirs(home), DataDir(os, home), listing, n => MatchesAny(n, SuperDeepMacTokens))
    else if os.Windows? then
      SweepDirs(SuperDeepWindowsDirs(env), listing, n => MatchesAny(n, SuperDeepWindowsTokens))
    else {}
  }

  /** The data-directory exclusion of the macOS step never applies: neither directory is the
      data directory. */
  lemma SuperDeepNeverSkips(home: string)
    requires |home| > 0
    ensures forall d | d in SuperDeepMacDirs(home) :: d != DataDir(Darwin, home)
  {
    var data := DataDir(Darwin, home);
    assert data[|data| - 1] == 'r';
    var dirs := SuperDeepMacDirs(home);
    assert EndsWith(dirs[0], "Library/Caches");
    assert dirs[0][|dirs[0]| - 1] == 's';
    assert EndsWith(dirs[1], "Library/Application Support/com.apple.sharedfilelist");
    assert dirs[1][|dirs[1]| - 1] == 't';
  }

  /** The last super-deep step has no deny list: in `~/Library/Caches` it deletes an entry such
      as "Qoder.SystemCache", which the system-cache sweep refuses for its "system". */
  lemma SuperDeepBypassesDenyList(home: string, listing: map<string, set<string>>, env: Env)
    requires |home| > 0
    requires SuperDeepMacDirs(home)[0] in listing && "Qoder.SystemCache" in listing[SuperDeepMacDirs(home)[0]]
    ensures Entry(SuperDeepMacDirs(home)[0], "Qoder.SystemCache") in SuperDeepSweep(Darwin, home, env, listing)
    ensures Entry(SuperDeepMacDirs(home)[0], "Qoder.SystemCache") !in SystemCacheSweep(Darwin, home, env, listing)
  {
    var e := Entry(SuperDeepMacDirs(home)[0], "Qoder.SystemCache");
    CacheNameHasToken();
    CacheNameIsDenied();
    SuperDeepTakes(home, env, listing, e);
    SystemCacheRefuses(home, env, listing, e);
  }

  lemma SuperDeepTakes(home: string, env: Env, listing: map<string, set<string>>, e: Entry)
    requires |home| > 0 && e.dir == SuperDeepMacDirs(home)[0]
    requires e.dir in listing && e.name in listing[e.dir] && MatchesAny(e.name, SuperDeepMacTokens)
    ensures e in SuperDeepSweep(Darwin, home, env, listing)
  {
    SuperDeepNeverSkips(home);
  }

  lemma SystemCacheRefuses(home: string, env: Env, listing: map<string, set<string>>, e: Entry)
    requires MatchesAny(e.name, MacDenyKeywords)
    ensures e !in SystemCacheSweep(Darwin, home, env, listing)
  {
  }

  lemma CacheNameHasToken()
    ensures MatchesAny("Qoder.SystemCache", SuperDeepMacTokens)
  {
    KeyMatches("Qoder.SystemCache", "qoder.systemcache", SuperDeepMacTokens, 0, 0);
  }

  lemma CacheNameIsDenied()
    ensures MatchesAny("Qoder.SystemCache", MacDenyKeywords)
  {
    KeyMatches("Qoder.SystemCache", "qoder.systemcache", MacDenyKeywords, 0, 6);
  }
}

=== FILE: common.dfy ===
/** Small shared vocabulary: an optional value and duplicate-freedom of sequences. */
module Common {

  /** A value that may be absent, used where the program skips an item or swallows an error. */
  datatype Option<+T> = None | Some(value: T)

  /** No element occurs twice. */
  predicate Distinct<T(==)>(s: seq<T>) {
    forall i, j | 0 <= i < j < |s| :: s[i] != s[j]
  }

  /** The elements of a sequence, as a set. */
  function Elements<T>(s: seq<T>): set<T> {
    set x | x in s
  }

  /** `a` is `b` with some elements left out and the others in their order. */
  predicate Subsequence<T(==)>(a: seq<T>, b: seq<T>)
    decreases |b|
  {
    if |a| == 0 then true
    else if |b| == 0 then false
    else if a[0] == b[0] then Subsequence(a[1..], b[1..])
    else Subsequence(a, b[1..])
  }

  /** A duplicate-free sequence has exactly as many elements as the set it enumerates. */
  lemma {:induction false} DistinctCardinality<T>(s: seq<T>)
    requires Distinct(s)
    ensures |Elements(s)| == |s|
  {
    if |s| > 0 {
      var tail := s[1..];
      assert Distinct(tail) by {
        forall i, j | 0 <= i < j < |tail| ensures tail[i] != tail[j] {
          assert tail[i] == s[i + 1] && tail[j] == s[j + 1];
        }
      }
      DistinctCardinality(tail);
      assert s[0] !in tail by {
        forall i | 0 <= i < |tail| ensures tail[i] != s[0] {
          assert tail[i] == s[i + 1];
        }
      }
      assert Elements(s) == Elements(tail) + {s[0]} by {
        assert s == [s[0]] + tail;
      }
    }
  }
}

=== FILE: data_dir_sweeps.dfy ===
/**
 * The choices of what to delete inside the data directory: the list of storage directories
 * of the full reset, the SharedClientCache index under chat preservation, and the two sweeps
 * of the super-deep cleanup (files with a suspicious extension, hidden files and
 * directories). The filesystem is a set of entries, and each choice is a filter over it.
 */
module DataDirSweeps {
  import opened Common
  import opened Text
  import opened Locations

  /* ---------------------------------------------------------------- storage directories */

  /** The storage directories the full reset always removes. */
  const CommonStorageDirs: seq<string> := [
    "Service Worker", "Certificate Revocation Lists", "SSLCertificates", "databases", "clp",
    "logs", "Backups", "CachedExtensionVSIXs"]

  /** Step 5 of the full reset: the directories to remove. "Local Storage", which may hold the
      conversation index, is added only when chat is not preserved. */
  function StorageDirsToRemove(preserveChat: bool): (dirs: seq<string>)
    ensures "Local Storage" in dirs <==> !preserveChat
    ensures forall d | d != "Local Storage" :: d in dirs <==> d in CommonStorageDirs || d in ["Session Storage", "WebStorage", "Shared Dictionary"]
    ensures Distinct(dirs)
  {
    if preserveChat then CommonStorageDirs + ["Session Storage", "WebStorage", "Shared Dictionary"]
    else CommonStorageDirs + ["Local Storage", "Session Storage", "WebStorage", "Shared Dictionary"]
  }

  /** Removing listed directories one by one: a name is removed when it exists and its removal
      does not fail (a failure is logged and skipped), and the count is of the removals. */
  method PurgeListed(present: set<string>, names: seq<string>, failing: set<string>)
    returns (remaining: set<string>, count: nat)
    requires Distinct(names)
    ensures remaining == present - (Elements(names) - failing)
    ensures count == |set n | n in names && n in present && n !in failing|
  {
    remaining := present;
    count := 0;
    var i := 0;
    while i < |names|
      invariant 0 <= i <= |names|
      invariant remaining == present - (Elements(names[..i]) - failing)
      invariant count == |set n | n in names[..i] && n in present && n !in failing|
    {
      var n := names[i];
      assert names[..i + 1] == names[..i] + [n];
      assert n !in names[..i];
      var before := set m | m in names[..i] && m in present && m !in failing;
      var after := set m | m in names[..i + 1] && m in present && m !in failing;
      if n in remaining && n !in failing {
        remaining := remaining - {n};
        count := count + 1;
        assert after == before + {n};
      } else {
        assert after == before;
      }
      i := i + 1;
    }
    assert names[..i] == names;
  }

  /* ---------------------------------------------------------------- SharedClientCache/index */

  /** An entry of `SharedClientCache/index`. */
  datatype IndexEntry = IndexEntry(name: string, isDir: bool)

  /** What the advanced identity cleanup does to the index: remove it as a whole, or remove the
      chosen entries one by one. */
  datatype IndexPlan = RemoveWholeIndex | RemoveEntries(chosen: set<IndexEntry>)

  /** Without chat preservation the whole index goes; with it, an entry is kept exactly when it
      is a file or a directory named after a chat, whatever its case. This is the advanced
      identity cleanup taken alone: within the full reset the index has normally gone with
      `SharedClientCache` already (`IndexAfterFullReset`). */
  function IndexPlanFor(preserveChat: bool, entries: set<IndexEntry>): (plan: IndexPlan)
    ensures plan.RemoveWholeIndex? <==> !preserveChat
    ensures plan.RemoveEntries? ==> forall e | e in entries ::
      e !in plan.chosen <==> !e.isDir || Contains(Lower(e.name), "chat")
    ensures plan.RemoveEntries? ==> plan.chosen <= entries
  {
    if preserveChat then RemoveEntries(set e | e in entries && e.isDir && !Contains(Lower(e.name), "chat"))
    else RemoveWholeIndex
  }

  /** The removal loop over `index_dir.iterdir()` under chat preservation: each directory
      whose lower-cased name lacks "chat" is removed, in listing order. */
  function IndexLoop(listing: seq<IndexEntry>): seq<IndexEntry>
    decreases |listing|
  {
    if |listing| == 0 then []
    else
      var e := listing[0];
      (if e.isDir && !Contains(Lower(e.name), "chat") then [e] else []) + IndexLoop(listing[1..])
  }

  /** The loop removes exactly the entries the plan chooses from the listing. */
  lemma {:induction false} IndexLoopFollowsPlan(listing: seq<IndexEntry>)
    ensures Elements(IndexLoop(listing)) == IndexPlanFor(true, Elements(listing)).chosen
    decreases |listing|
  {
    if |listing| > 0 {
      IndexLoopFollowsPlan(listing[1..]);
      assert Elements(listing) == {listing[0]} + Elements(listing[1..]) by {
        assert listing == [listing[0]] + listing[1..];
      }
    }
  }

  /** Step 3 of the full reset: the cache directories removed as a whole, `SharedClientCache`
      among them, before step 5 runs the advanced identity cleanup. */
  const FullResetCacheDirs: seq<string> := [
    "Cache", "blob_storage", "Code Cache", "SharedClientCache", "GPUCache", "DawnGraphiteCache",
    "DawnWebGPUCache", "ShaderCache", "DawnCache", "Dictionaries", "CachedData",
    "CachedProfilesData", "CachedExtensions", "IndexedDB", "CacheStorage", "WebSQL"]

  /** The index entries left by the full reset. Step 3 removes `SharedClientCache` unless its
      removal fails (a failed removal is modelled as removing nothing); step 5 applies the index
      plan only when the directory still exists. So chat-named index directories outlive the
      full reset only when step 3 could not remove the cache. */
  function IndexAfterFullReset(entries: set<IndexEntry>, step3Failing: set<string>, preserveChat: bool)
    : (left: set<IndexEntry>)
    ensures "SharedClientCache" !in step3Failing ==> left == {}
    ensures !preserveChat ==> left == {}
    ensures preserveChat && "SharedClientCache" in step3Failing ==> forall e | e in entries ::
      e in left <==> !e.isDir || Contains(Lower(e.name), "chat")
    ensures left <= entries
  {
    var cacheSurvives := "SharedClientCache" !in FullResetCacheDirs || "SharedClientCache" in step3Failing;
    if !cacheSurvives then {}
    else
      match IndexPlanFor(preserveChat, entries)
      case RemoveWholeIndex => {}
      case RemoveEntries(chosen) => entries - chosen
  }

  /* ---------------------------------------------------------------- suspicious extensions */

  const SuspiciousExtensions: seq<string> := [
    ".tmp", ".temp", ".cache", ".lock", ".pid", ".sock", ".session", ".fingerprint", ".tracking",
    ".analytics"]

  const ProtectedKeywords: seq<string> := [
    "settings", "config", "workspace", "preference", "user", "important", "backup", "license",
    "key", "certificate", "password", "auth", "secret", "critical", "system", "apple",
    "microsoft", "windows", "macos", "safari", "chrome"]

  const AppTokens: seq<string> := ["qoder", "vscode", "electron", "code-", "ms-vscode"]

  /** The index of the last `c` in `s`, or -1: Python's `s.rfind(c)`. */
  function LastIndexOf(s: string, c: char): (i: int)
    ensures -1 <= i < |s|
    ensures i >= 0 ==> s[i] == c
    ensures forall j | i < j < |s| :: s[j] != c
  {
    if |s| == 0 then -1
    else if s[|s| - 1] == c then |s| - 1
    else LastIndexOf(s[..|s| - 1], c)
  }

  /** `PurePath(name).suffix`: from the last dot on, provided that dot is neither the first
      nor the last character; otherwise empty. */
  function Suffix(name: string): (sfx: string)
    ensures sfx == "" || (|sfx| >= 2 && sfx[0] == '.' && '.' !in sfx[1..] && EndsWith(name, sfx) && |sfx| < |name|)
    ensures sfx != "" <==>
      |name| > 0 && name[|name| - 1] != '.' && exists i | 0 < i < |name| - 1 :: name[i] == '.'
  {
    var i := LastIndexOf(name, '.');
    assert 0 < i < |name| - 1 ==> name[i] == '.';
    assert forall j | 0 < j < |name| - 1 && name[j] == '.' :: j <= i;
    if 0 < i < |name| - 1 then name[i..] else ""
  }

  /** Whether the extension sweep deletes `file`, found in the walked directory `root`: its
      lower-cased suffix is suspicious, its path contains the data directory, the file name or
      the directory mentions an application token, and the file name holds no protected
      keyword. */
  predicate ExtensionSweepDeletes(os: OsFamily, dataDir: string, root: string, file: string) {
    && Lower(Suffix(file)) in SuspiciousExtensions
    && Contains(JoinPath(root, file, Separator(os)), dataDir)
    && (exists t | t in AppTokens :: Contains(Lower(file), t) || Contains(Lower(root), t))
    && !MatchesAny(file, ProtectedKeywords)
  }

  /** A file seen by `os.walk`: the directory being walked and the file's name. */
  datatype WalkedFile = WalkedFile(root: string, name: string)

  /** The files the extension sweep deletes among those a walk of the data directory yields. */
  function ExtensionSweep(os: OsFamily, home: string, walk: set<WalkedFile>): (gone: set<WalkedFile>)
    requires |home| > 0
    ensures gone <= walk
    ensures forall w | w in gone ::
      && Lower(Suffix(w.name)) in SuspiciousExtensions
      && !MatchesAny(w.name, ProtectedKeywords)
      && Contains(JoinPath(w.root, w.name, Separator(os)), DataDir(os, home))
      && exists t | t in AppTokens :: Contains(Lower(w.name), t) || Contains(Lower(w.root), t)
  {
    set w | w in walk && ExtensionSweepDeletes(os, DataDir(os, home), w.root, w.name)
  }

  /** Inside the data directory two of the four conditions always hold: the path contains the
      data directory, and the walked directory's lower-cased path contains "qoder", one of the
      application tokens. The sweep therefore deletes exactly the files with a suspicious
      extension and no protected keyword. */
  lemma {:induction false} ExtensionSweepInsideDataDir(os: OsFamily, home: string, root: string, file: string)
    requires |home| > 0 && StartsWith(root, DataDir(os, home))
    ensures ExtensionSweepDeletes(os, DataDir(os, home), root, file)
        <==> Lower(Suffix(file)) in SuspiciousExtensions && !MatchesAny(file, ProtectedKeywords)
  {
    var d := DataDir(os, home);
    var p := JoinPath(root, file, Separator(os));
    assert StartsWith(p, d) by {
      assert root <= p;
    }
    ContainsAtOffset(p, d, 0);
    UnderDataDirMentionsQoder(os, home, root);
    assert AppTokens[0] == "qoder";
  }

  /** Whole-walk form: for a walk of the data directory the sweep is a filter on the file
      name alone. */
  lemma ExtensionSweepByName(os: OsFamily, home: string, walk: set<WalkedFile>)
    requires |home| > 0
    requires forall w | w in walk :: StartsWith(w.root, DataDir(os, home))
    ensures ExtensionSweep(os, home, walk)
         == set w | w in walk && Lower(Suffix(w.name)) in SuspiciousExtensions && !MatchesAny(w.name, ProtectedKeywords)
  {
    forall w | w in walk {
      ExtensionSweepInsideDataDir(os, home, w.root, w.name);
    }
  }

  /* ---------------------------------------------------------------- hidden entries */

  /** A directory tree below the data directory. */
  datatype Node = File(name: string) | Dir(name: string, children: seq<Node>)

  predicate HiddenFileGoes(name: string) {
    StartsWith(name, ".") && name != ".gitignore" && name != ".gitkeep"
  }

  predicate HiddenDirGoes(name: string) {
    StartsWith(name, ".") && name != ".git"
  }

  /** The hidden sweep over a directory's entries, as `os.walk` drives it top-down: hidden
      files other than .gitignore and .gitkeep are unlinked, hidden directories other than
      .git are removed with their whole subtree and not descended into, and every other
      directory is swept in turn. */
  function SweepHidden(children: seq<Node>): (kept: seq<Node>)
    ensures |kept| <= |children|
  {
    if |children| == 0 then []
    else
      var rest := SweepHidden(children[1..]);
      match children[0]
      case File(n) => if HiddenFileGoes(n) then rest else [File(n)] + rest
      case Dir(n, kids) => if HiddenDirGoes(n) then rest else [Dir(n, SweepHidden(kids))] + rest
  }

  /** An entry of a tree: the names on the way down to it and whether it is a directory. */
  datatype Entry = Entry(path: seq<string>, isDir: bool)

  /** All entries of a list of sibling trees. */
  function Entries(children: seq<Node>): set<Entry> {
    if |children| == 0 then {}
    else
      var rest := Entries(children[1..]);
      match children[0]
      case File(n) => {Entry([n], false)} + rest
      case Dir(n, kids) => {Entry([n], true)} + Under(n, Entries(kids)) + rest
  }

  /** The entries of a directory named `n`, given those of its contents. */
  function Under(n: string, inside: set<Entry>): set<Entry> {
    set e | e in inside :: Entry([n] + e.path, e.isDir)
  }

  /** The entry is removed by the sweep: one of the directories above it is hidden, or it is
      itself a hidden file or directory that the sweep does not spare. */
  predicate RemovedByHiddenSweep(e: Entry) {
    && |e.path| > 0
    && ((exists j | 0 <= j < |e.path| - 1 :: HiddenDirGoes(e.path[j]))
        || (e.isDir && HiddenDirGoes(e.path[|e.path| - 1]))
        || (!e.isDir && HiddenFileGoes(e.path[|e.path| - 1])))
  }

  lemma {:induction false} EntriesNonEmpty(children: seq<Node>)
    ensures forall e | e in Entries(children) :: |e.path| > 0
  {
    if |children| > 0 {
      EntriesNonEmpty(children[1..]);
    }
  }

  /** What survives the hidden sweep is exactly what it does not remove. */
  lemma {:induction false} SweepHiddenEntries(children: seq<Node>)
    ensures Entries(SweepHidden(children)) == set e | e in Entries(children) && !RemovedByHiddenSweep(e)
  {
    if |children| > 0 {
      SweepHiddenEntries(children[1..]);
      match children[0]
      case File(n) =>
      case Dir(n, kids) =>
        SweepHiddenEntries(kids);
        EntriesNonEmpty(kids);
        if HiddenDirGoes(n) {
          forall x | x in Entries(kids) ensures RemovedByHiddenSweep(Entry([n] + x.path, x.isDir)) {
            RemovedUnder(n, x);
          }
          assert RemovedByHiddenSweep(Entry([n], true));
        } else {
          UnderFilter(n, Entries(kids), Entries(SweepHidden(kids)));
          assert !RemovedByHiddenSweep(Entry([n], true));
        }
    }
  }

  /** Below a directory that is not hidden, the sweep removes what it would remove at top
      level. */
  lemma UnderFilter(n: string, inside: set<Entry>, kept: set<Entry>)
    requires !HiddenDirGoes(n)
    requires forall e | e in inside :: |e.path| > 0
    requires kept == set e | e in inside && !RemovedByHiddenSweep(e)
    ensures Under(n, kept) == set e | e in Under(n, inside) && !RemovedByHiddenSweep(e)
  {
    forall x | x in inside {
      RemovedUnder(n, x);
    }
  }

  /** Prefixing a directory name that is not hidden does not change whether an entry is
      removed; prefixing a hidden one removes it. */
  lemma RemovedUnder(n: string, e: Entry)
    requires |e.path| > 0
    ensures RemovedByHiddenSweep(Entry([n] + e.path, e.isDir)) <==> HiddenDirGoes(n) || RemovedByHiddenSweep(e)
  {
    var p := [n] + e.path;
    assert p[0] == n;
    assert p[|p| - 1] == e.path[|e.path| - 1];
    assert forall j | 0 <= j < |e.path| - 1 :: p[j + 1] == e.path[j];
    if exists j | 0 <= j < |p| - 1 :: HiddenDirGoes(p[j]) {
      var j :| 0 <= j < |p| - 1 && HiddenDirGoes(p[j]);
      if j > 0 {
        assert e.path[j - 1] == p[j];
      }
    }
  }
}

=== FILE: id_files.dfy ===
/**
 * The identifier files in the data directory (`machineid`, `deviceid`, ...). Both resets
 * overwrite each of them with a freshly generated uuid4 text; the directory is modelled as a
 * map from file name to contents, and the new values are arguments.
 */
module IdFiles {
  import opened Common
  import opened Identifiers

  type Files = map<string, string>

  /** The files the full reset rewrites, in program order: the main machine-id file, then the
      five additional identifier files. */
  const FullResetIdNames: seq<string> :=
    ["machineid", "deviceid", "hardware_uuid", "system_uuid", "platform_id", "installation_id"]

  /** The files the hardware-fingerprint reset rewrites, in program order. */
  const HardwareIdNames: seq<string> := [
    "machineid", "deviceid", "hardware_uuid", "system_uuid", "platform_id", "installation_id",
    "cpu_id", "gpu_id", "board_serial", "bios_uuid", "memory_id"]

  lemma IdNamesDistinct()
    ensures Distinct(FullResetIdNames) && Distinct(HardwareIdNames)
  {
  }

  /** How one write fails: `open(path, 'w')` raises and the file is untouched, or the open
      succeeds, which truncates the file, and the `write` after it raises, leaving it empty. */
  datatype Fault = OpenFails | WriteFails

  /** The writes that fail, by file name; every other write succeeds. */
  type Faults = map<string, Fault>

  /** Whether writing `n` got as far as opening, and so truncating, the file. */
  predicate Opened(faults: Faults, n: string) {
    n !in faults || faults[n] == WriteFails
  }

  /** What an opened file holds afterwards: the new value, or nothing when the write failed. */
  function Outcome(faults: Faults, n: string, id: string): string {
    if n in faults then "" else id
  }

  /** The directory after writing each of `names` with the matching new value, in order.
      `RotatedSpec` states what it holds. */
  function Rotated(files: Files, names: seq<string>, newIds: seq<Uuid>, faults: Faults): Files
    requires |newIds| == |names| && Distinct(names)
    decreases |names|
  {
    if |names| == 0 then files
    else
      assert Distinct(names[1..]) by { TailDistinct(names); }
      var n := names[0];
      var first := if Opened(faults, n) then files[n := Outcome(faults, n, newIds[0])] else files;
      Rotated(first, names[1..], newIds[1..], faults)
  }

  lemma TailDistinct(names: seq<string>)
    requires |names| > 0 && Distinct(names)
    ensures Distinct(names[1..]) && names[0] !in names[1..]
  {
    assert forall i | 1 <= i < |names| :: names[i] == names[1..][i - 1];
  }

  /** What the rotated directory holds: a successful write leaves the new value, a failed
      write leaves an empty file, a failed open leaves the file as it was, and every other
      file is as it was. */
  lemma {:induction false} RotatedSpec(files: Files, names: seq<string>, newIds: seq<Uuid>, faults: Faults)
    requires |newIds| == |names| && Distinct(names)
    ensures var out := Rotated(files, names, newIds, faults);
      && (forall n :: n in out <==> n in files || (n in names && Opened(faults, n)))
      && (forall i | 0 <= i < |names| && Opened(faults, names[i]) ::
            names[i] in out && out[names[i]] == Outcome(faults, names[i], newIds[i]))
      && (forall n | n in files && (n !in names || !Opened(faults, n)) :: out[n] == files[n])
    decreases |names|
  {
    if |names| > 0 {
      TailDistinct(names);
      var n := names[0];
      var first := if Opened(faults, n) then files[n := Outcome(faults, n, newIds[0])] else files;
      RotatedSpec(first, names[1..], newIds[1..], faults);
      assert forall i | 1 <= i < |names| :: names[i] == names[1..][i - 1] && newIds[i] == newIds[1..][i - 1];
    }
  }

  /** The names whose write succeeds, in order. */
  function Written(names: seq<string>, faults: Faults): seq<string> {
    if |names| == 0 then []
    else if names[0] in faults then Written(names[1..], faults)
    else [names[0]] + Written(names[1..], faults)
  }

  lemma {:induction false} WrittenSpec(names: seq<string>, faults: Faults)
    requires Distinct(names)
    ensures forall n :: n in Written(names, faults) <==> n in names && n !in faults
    ensures Distinct(Written(names, faults))
  {
    if |names| > 0 {
      TailDistinct(names);
      WrittenSpec(names[1..], faults);
    }
  }

  /** The loop of the hardware-fingerprint reset's step 1: each file is written in its own
      `try`, a failed write is logged and skipped, and `reset_count` counts the successes. */
  method RotateIds(files: Files, names: seq<string>, newIds: seq<Uuid>, faults: Faults)
    returns (out: Files, count: nat)
    requires |newIds| == |names| && Distinct(names)
    ensures out == Rotated(files, names, newIds, faults)
    ensures count == |set n | n in names && n !in faults|
  {
    out := files;
    count := 0;
    var i := 0;
    while i < |names|
      invariant 0 <= i <= |names|
      invariant out == Rotated(files, names[..i], newIds[..i], faults)
      invariant count == |Written(names[..i], faults)|
    {
      var n := names[i];
      RotateStep(files, names, newIds, faults, i);
      out := if Opened(faults, n) then out[n := Outcome(faults, n, newIds[i])] else out;
      count := if n in faults then count else count + 1;
      i := i + 1;
    }
    assert names[..i] == names && newIds[..i] == newIds;
    WrittenCount(names, faults);
  }

  lemma WrittenCount(names: seq<string>, faults: Faults)
    requires Distinct(names)
    ensures |Written(names, faults)| == |set n | n in names && n !in faults| <= |names|
  {
    WrittenSpec(names, faults);
    DistinctCardinality(Written(names, faults));
    assert Elements(Written(names, faults)) == set n | n in names && n !in faults;
  }

  /** One round of the loop in `RotateIds`, on prefixes of the names. */
  lemma RotateStep(files: Files, names: seq<string>, newIds: seq<Uuid>, faults: Faults, i: nat)
    requires |newIds| == |names| && Distinct(names) && i < |names|
    ensures Distinct(names[..i]) && Distinct(names[..i + 1])
    ensures var before := Rotated(files, names[..i], newIds[..i], faults);
      Rotated(files, names[..i + 1], newIds[..i + 1], faults) ==
        if Opened(faults, names[i]) then before[names[i] := Outcome(faults, names[i], newIds[i])] else before
    ensures |Written(names[..i + 1], faults)| == |Written(names[..i], faults)| + if names[i] in faults then 0 else 1
  {
    assert names[..i + 1] == names[..i] + [names[i]];
    assert newIds[..i + 1] == newIds[..i] + [newIds[i]];
    assert Distinct(names[..i + 1]);
    RotatedSnoc(files, names[..i], newIds[..i], faults, names[i], newIds[i]);
    WrittenAppend(names[..i], names[i], faults);
  }

  /** Writing one more name changes at most that name's file. */
  lemma RotatedSnoc(files: Files, names: seq<string>, newIds: seq<Uuid>, faults: Faults, n: string, v: Uuid)
    requires |newIds| == |names| && Distinct(names + [n])
    ensures Distinct(names)
    ensures var before := Rotated(files, names, newIds, faults);
      Rotated(files, names + [n], newIds + [v], faults) ==
        if Opened(faults, n) then before[n := Outcome(faults, n, v)] else before
  {
    var ns := names + [n];
    assert Distinct(names) by {
      forall i, j | 0 <= i < j < |names| ensures names[i] != names[j] {
        assert ns[i] == names[i] && ns[j] == names[j];
      }
    }
    assert n !in names by {
      forall i | 0 <= i < |names| ensures names[i] != n {
        assert ns[i] == names[i] && ns[|names|] == n;
      }
    }
    var before := Rotated(files, names, newIds, faults);
    RotatedSpec(files, names, newIds, faults);
    var after := if Opened(faults, n) then before[n := Outcome(faults, n, v)] else before;
    forall i | 0 <= i < |ns| && Opened(faults, ns[i])
      ensures ns[i] in after && after[ns[i]] == Outcome(faults, ns[i], (newIds + [v])[i])
    {
      if i < |names| {
        assert ns[i] == names[i];
      }
    }
    SameAsRotated(after, files, ns, newIds + [v], faults);
  }

  /** A directory with the three properties of `Rotated` is the one `Rotated` describes. */
  lemma SameAsRotated(out: Files, files: Files, names: seq<string>, newIds: seq<Uuid>, faults: Faults)
    requires |newIds| == |names| && Distinct(names)
    requires forall n :: n in out <==> n in files || (n in names && Opened(faults, n))
    requires forall i | 0 <= i < |names| && Opened(faults, names[i]) ::
      names[i] in out && out[names[i]] == Outcome(faults, names[i], newIds[i])
    requires forall n | n in files && (n !in names || !Opened(faults, n)) :: out[n] == files[n]
    ensures out == Rotated(files, names, newIds, faults)
  {
    var r := Rotated(files, names, newIds, faults);
    RotatedSpec(files, names, newIds, faults);
    forall n | n in out ensures out[n] == r[n] {
      if n in names && Opened(faults, n) {
        var i :| 0 <= i < |names| && names[i] == n;
      }
    }
  }

  lemma {:induction false} WrittenAppend(names: seq<string>, n: string, faults: Faults)
    ensures Written(names + [n], faults) == Written(names, faults) + (if n in faults then [] else [n])
    decreases |names|
  {
    if |names| > 0 {
      assert (names + [n])[1..] == names[1..] + [n];
      WrittenAppend(names[1..], n, faults);
    }
  }

  /** Rotation does not depend on what the files held before: a second rotation erases every
      trace of the first. */
  lemma RotationForgetsPrevious(files: Files, names: seq<string>, first: seq<Uuid>, second: seq<Uuid>, faults: Faults)
    requires |first| == |names| && |second| == |names| && Distinct(names)
    ensures Rotated(Rotated(files, names, first, faults), names, second, faults) == Rotated(files, names, second, faults)
  {
    var once := Rotated(files, names, first, faults);
    var twice := Rotated(once, names, second, faults);
    var direct := Rotated(files, names, second, faults);
    RotatedSpec(files, names, first, faults);
    RotatedSpec(once, names, second, faults);
    RotatedSpec(files, names, second, faults);
    forall n | n in twice ensures twice[n] == direct[n] {
      if n in names && Opened(faults, n) {
        var i :| 0 <= i < |names| && names[i] == n;
      }
    }
  }

  /** Rotation is not idempotent: when the first written file gets a different new value the
      second time, the directory differs from what the first rotation left. */
  lemma RotationNotIdempotent(files: Files, names: seq<string>, first: seq<Uuid>, second: seq<Uuid>, faults: Faults)
    requires |first| == |names| && |second| == |names| && Distinct(names)
    requires |names| > 0 && names[0] !in faults && first[0] != second[0]
    ensures Rotated(Rotated(files, names, first, faults), names, second, faults) != Rotated(files, names, first, faults)
  {
    var once := Rotated(files, names, first, faults);
    RotatedSpec(files, names, first, faults);
    RotatedSpec(once, names, second, faults);
    assert once[names[0]] == first[0];
    assert Rotated(once, names, second, faults)[names[0]] == second[0];
  }

  /** Where the rewriting stopped: the directory and whether every write went through. */
  datatype Rewrite = Rewrite(files: Files, completed: bool)

  /** The position of the first name whose write fails, or `|names|` when none does. */
  function FirstFailure(names: seq<string>, faults: Faults): (k: nat)
    ensures k <= |names|
    ensures forall j | 0 <= j < k :: names[j] !in faults
    ensures k < |names| ==> names[k] in faults
    ensures k == |names| <==> forall n | n in names :: n !in faults
  {
    if |names| == 0 || names[0] in faults then 0 else 1 + FirstFailure(names[1..], faults)
  }

  /** The names whose file an unguarded run of writes opened before it raised: those before
      the first failure, and the failing one too when its open succeeded. */
  function OpenedBeforeAbort(names: seq<string>, faults: Faults): (ns: seq<string>)
    ensures var k := FirstFailure(names, faults);
      ns == names[..k] || (k < |names| && ns == names[..k + 1] && faults[names[k]] == WriteFails)
  {
    var k := FirstFailure(names, faults);
    if k < |names| && faults[names[k]] == WriteFails then names[..k + 1] else names[..k]
  }

  /** Writes that are not guarded by a `try`: the names are written in order and the first
      failing write raises, leaving the earlier files rewritten, the failing one empty when
      its open succeeded, and the later ones untouched. */
  function WriteInOrder(files: Files, names: seq<string>, newIds: seq<Uuid>, faults: Faults): (o: Rewrite)
    requires |newIds| == |names| && Distinct(names)
    ensures o.completed <==> FirstFailure(names, faults) == |names|
    ensures forall i | 0 <= i < FirstFailure(names, faults) :: names[i] in o.files && o.files[names[i]] == newIds[i]
    ensures var k := FirstFailure(names, faults);
      k < |names| && faults[names[k]] == WriteFails ==> names[k] in o.files && o.files[names[k]] == ""
    ensures forall n | n !in OpenedBeforeAbort(names, faults) ::
      (n in o.files <==> n in files) && (n in files ==> o.files[n] == files[n])
  {
    var k := FirstFailure(names, faults);
    var done := names[..k];
    assert Distinct(done);
    assert forall i | 0 <= i < k :: done[i] == names[i];
    assert k < |names| ==> names[..k + 1] == done + [names[k]];
    var before := Rotated(files, done, newIds[..k], map[]);
    RotatedSpec(files, done, newIds[..k], map[]);
    if k < |names| && faults[names[k]] == WriteFails then Rewrite(before[names[k] := ""], false)
    else Rewrite(before, k == |names|)
  }

  /** Step 1 of the full reset: the machine-id file and the five further identifier files are
      written outside any `try`, so a failing write aborts the whole reset. */
  function FullResetIdFiles(files: Files, newIds: seq<Uuid>, faults: Faults): (o: Rewrite)
    requires |newIds| == |FullResetIdNames|
    ensures o.completed <==> forall n | n in FullResetIdNames :: n !in faults
    ensures forall i | 0 <= i < FirstFailure(FullResetIdNames, faults) ::
      FullResetIdNames[i] in o.files && o.files[FullResetIdNames[i]] == newIds[i]
    ensures var k := FirstFailure(FullResetIdNames, faults);
      k < |FullResetIdNames| && faults[FullResetIdNames[k]] == WriteFails ==>
        FullResetIdNames[k] in o.files && o.files[FullResetIdNames[k]] == ""
    ensures forall n | n in files && n !in OpenedBeforeAbort(FullResetIdNames, faults) ::
      n in o.files && o.files[n] == files[n]
    ensures forall n | n !in files && n !in OpenedBeforeAbort(FullResetIdNames, faults) :: n !in o.files
  {
    IdNamesDistinct();
    WriteInOrder(files, FullResetIdNames, newIds, faults)
  }

  /** Step 1 of the hardware-fingerprint reset. */
  method HardwareIdFiles(files: Files, newIds: seq<Uuid>, faults: Faults) returns (out: Files, count: nat)
    requires |newIds| == |HardwareIdNames|
    ensures out == Rotated(files, HardwareIdNames, newIds, faults)
    ensures count == |set n | n in HardwareIdNames && n !in faults|
    ensures count <= |HardwareIdNames|
  {
    IdNamesDistinct();
    out, count := RotateIds(files, HardwareIdNames, newIds, faults);
    WrittenCount(HardwareIdNames, faults);
  }
}

=== FILE: identifiers.dfy ===
/**
 * The shapes of the freshly generated identifiers the reset stages write. Generation itself
 * (`uuid.uuid4()`, `hashlib.sha256(...).hexdigest()`) is not modelled: stages receive the new
 * values as arguments, and these types say what such values look like.
 */
module Identifiers {

  predicate IsLowerHex(c: char) {
    '0' <= c <= '9' || 'a' <= c <= 'f'
  }

  /** The text of `str(uuid.uuid4())`: 8-4-4-4-12 lower-case hex digits separated by hyphens,
      version digit 4 and an RFC 4122 variant digit. */
  predicate IsUuid4Text(s: string) {
    && |s| == 36
    && (forall i | 0 <= i < 36 :: if i in {8, 13, 18, 23} then s[i] == '-' else IsLowerHex(s[i]))
    && s[14] == '4'
    && s[19] in {'8', '9', 'a', 'b'}
  }

  type Uuid = s: string | IsUuid4Text(s) witness "00000000-0000-4000-8000-000000000000"

  /** The text of a SHA-256 `hexdigest()`: 64 lower-case hex digits. */
  predicate IsHexDigest(s: string) {
    |s| == 64 && forall i | 0 <= i < 64 :: IsLowerHex(s[i])
  }

  type Digest = s: string | IsHexDigest(s)
    witness seq(64, _ => '0')
}

=== FILE: identity_record.dfy ===
/**
 * The identity record `User/globalStorage/storage.json`: a JSON object read into an
 * insertion-ordered Python dict, edited in memory and dumped back as a whole. It is modelled
 * as the key order plus a key -> value map, with the two always describing the same keys.
 */
module IdentityRecord {
  import opened Common
  import opened Text

  type Key = string

  /** A JSON member value. Only the string values the reset stages write are told apart;
      any other JSON value is carried through untouched as its serialized text. */
  datatype Value = Str(text: string) | OtherJson(serialized: string)

  datatype RawRecord = RawRecord(order: seq<Key>, values: map<Key, Value>)

  /** Keys are unique and the order lists exactly the keys of the map. */
  predicate WellFormed(r: RawRecord) {
    Distinct(r.order) && r.values.Keys == Elements(r.order)
  }

  type Record = r: RawRecord | WellFormed(r) witness RawRecord([], map[])

  /** `data[k] = v`: an existing key keeps its position, a new key goes to the end. */
  function Put(r: Record, k: Key, v: Value): (r': Record)
    ensures k in r'.values && r'.values[k] == v
    ensures forall j | j != k :: (j in r'.values <==> j in r.values)
    ensures forall j | j != k && j in r.values :: r'.values[j] == r.values[j]
    ensures k in r.values ==> r'.order == r.order
    ensures k !in r.values ==> r'.order == r.order + [k]
  {
    if k in r.values then
      RawRecord(r.order, r.values[k := v])
    else
      var raw := RawRecord(r.order + [k], r.values[k := v]);
      assert Distinct(raw.order) by {
        assert k !in r.order;
      }
      assert raw.values.Keys == Elements(raw.order);
      raw
  }

  /** The keys of a write table, in the table's order. */
  function TableKeys(writes: seq<(Key, Value)>): (ks: seq<Key>)
    ensures |ks| == |writes|
    ensures forall i | 0 <= i < |writes| :: ks[i] == writes[i].0
  {
    seq(|writes|, i requires 0 <= i < |writes| => writes[i].0)
  }

  /** The keys of `ks` that `present` lacks, in the order of `ks`. */
  function Absent(ks: seq<Key>, present: map<Key, Value>): seq<Key>
    decreases |ks|
  {
    if |ks| == 0 then []
    else (if ks[0] in present then [] else [ks[0]]) + Absent(ks[1..], present)
  }

  /** The absent keys are exactly the keys of `ks` that `present` lacks. */
  lemma {:induction false} AbsentMembers(ks: seq<Key>, present: map<Key, Value>)
    ensures forall k :: k in Absent(ks, present) <==> k in ks && k !in present
    decreases |ks|
  {
    if |ks| > 0 {
      AbsentMembers(ks[1..], present);
      assert forall k | k in ks :: k == ks[0] || k in ks[1..];
    }
  }

  /** What is absent depends only on which of the keys are present. */
  lemma {:induction false} AbsentAgree(ks: seq<Key>, m1: map<Key, Value>, m2: map<Key, Value>)
    requires forall k | k in ks :: (k in m1 <==> k in m2)
    ensures Absent(ks, m1) == Absent(ks, m2)
    decreases |ks|
  {
    if |ks| > 0 {
      assert ks[0] in ks;
      assert forall k | k in ks[1..] :: k in ks;
      AbsentAgree(ks[1..], m1, m2);
    }
  }

  /** `for key, value in table.items(): data[key] = value`, for a table with distinct keys
      (a Python dict literal). Afterwards every table key holds its table value and every
      other key is as before. `PutAllKeyOrder` states where the keys end up. */
  function PutAll(r: Record, writes: seq<(Key, Value)>): (r': Record)
    requires Distinct(TableKeys(writes))
    ensures forall i | 0 <= i < |writes| :: writes[i].0 in r'.values && r'.values[writes[i].0] == writes[i].1
    ensures forall k :: k in r'.values <==> k in r.values || k in TableKeys(writes)
    ensures forall k | k in r.values && k !in TableKeys(writes) :: r'.values[k] == r.values[k]
    decreases |writes|
  {
    if |writes| == 0 then r
    else
      var tail := writes[1..];
      TableKeysSplit(writes);
      var r1 := Put(r, writes[0].0, writes[0].1);
      var r' := PutAll(r1, tail);
      r'
  }

  /** The keys already present keep their places, and the new keys follow them in the
      table's order. */
  lemma {:induction false} PutAllKeyOrder(r: Record, writes: seq<(Key, Value)>)
    requires Distinct(TableKeys(writes))
    ensures PutAll(r, writes).order == r.order + Absent(TableKeys(writes), r.values)
    decreases |writes|
  {
    if |writes| > 0 {
      TableKeysSplit(writes);
      var r1 := Put(r, writes[0].0, writes[0].1);
      PutAllKeyOrder(r1, writes[1..]);
      PutAllStep(r, writes);
    }
  }

  /** The order after the first write of a table, seen from the rest of the table. */
  lemma PutAllStep(r: Record, writes: seq<(Key, Value)>)
    requires |writes| > 0 && Distinct(TableKeys(writes))
    ensures var r1 := Put(r, writes[0].0, writes[0].1);
      r1.order + Absent(TableKeys(writes[1..]), r1.values) == r.order + Absent(TableKeys(writes), r.values)
  {
    TableKeysSplit(writes);
    var r1 := Put(r, writes[0].0, writes[0].1);
    AbsentStep(r.order, r.values, r1.values, writes[0].0, TableKeys(writes));
  }

  /** Key-level form of `PutAllStep`: `present1` differs from `present` at most in `k0`. */
  lemma AbsentStep(order: seq<Key>, present: map<Key, Value>, present1: map<Key, Value>, k0: Key, ks: seq<Key>)
    requires |ks| > 0 && ks[0] == k0 && k0 !in ks[1..]
    requires forall k | k != k0 :: (k in present1 <==> k in present)
    ensures (if k0 in present then order else order + [k0]) + Absent(ks[1..], present1) == order + Absent(ks, present)
  {
    var rest := Absent(ks[1..], present);
    AbsentAgree(ks[1..], present1, present);
    if k0 in present {
      assert Absent(ks, present) == rest;
    } else {
      assert Absent(ks, present) == [k0] + rest;
      assert (order + [k0]) + rest == order + ([k0] + rest);
    }
  }

  /** A write table is its first entry followed by the rest. */
  lemma {:induction false} TableKeysSplit(writes: seq<(Key, Value)>)
    requires |writes| > 0 && Distinct(TableKeys(writes))
    ensures TableKeys(writes[1..]) == TableKeys(writes)[1..]
    ensures Distinct(TableKeys(writes[1..]))
    ensures writes[0].0 !in TableKeys(writes[1..])
    ensures forall k :: k in TableKeys(writes) <==> k == writes[0].0 || k in TableKeys(writes[1..])
    ensures forall i | 1 <= i < |writes| :: writes[i] == writes[1..][i - 1]
  {
    var tail := TableKeys(writes[1..]);
    forall i | 0 <= i < |tail| ensures tail[i] != writes[0].0 {
      assert tail[i] == TableKeys(writes)[i + 1];
    }
    assert forall k :: k in TableKeys(writes) <==> k == TableKeys(writes)[0] || k in TableKeys(writes)[1..];
  }

  /** The key order `PutAll` leaves depends only on the order it starts from and the table's
      keys, not on the values written. */
  lemma {:induction false} PutAllOrder(r1: Record, r2: Record, w1: seq<(Key, Value)>, w2: seq<(Key, Value)>)
    requires Distinct(TableKeys(w1)) && TableKeys(w1) == TableKeys(w2)
    requires r1.order == r2.order
    ensures PutAll(r1, w1).order == PutAll(r2, w2).order
    decreases |w1|
  {
    if |w1| > 0 {
      assert w1[0].0 == TableKeys(w1)[0] == w2[0].0;
      assert TableKeys(w1[1..]) == TableKeys(w1)[1..] == TableKeys(w2)[1..] == TableKeys(w2[1..]);
      var p1 := Put(r1, w1[0].0, w1[0].1);
      var p2 := Put(r2, w2[0].0, w2[0].1);
      assert w1[0].0 in r1.values <==> w1[0].0 in r2.values;
      PutAllOrder(p1, p2, w1[1..], w2[1..]);
    }
  }

  /** Writing keys that are all present already leaves the key order as it was. */
  lemma {:induction false} PutAllPresentOrder(r: Record, w: seq<(Key, Value)>)
    requires Distinct(TableKeys(w))
    requires forall i | 0 <= i < |w| :: w[i].0 in r.values
    ensures PutAll(r, w).order == r.order
    decreases |w|
  {
    if |w| > 0 {
      assert TableKeys(w[1..]) == TableKeys(w)[1..];
      var p := Put(r, w[0].0, w[0].1);
      assert forall i | 0 <= i < |w[1..]| :: w[1..][i] == w[i + 1];
      PutAllPresentOrder(p, w[1..]);
    }
  }

  /** Writing values a record already holds changes nothing. */
  lemma PutAllIdle(r: Record, w: seq<(Key, Value)>)
    requires Distinct(TableKeys(w))
    requires forall i | 0 <= i < |w| :: w[i].0 in r.values && r.values[w[i].0] == w[i].1
    ensures PutAll(r, w) == r
  {
    PutAllPresentOrder(r, w);
    var out := PutAll(r, w);
    forall k | k in out.values ensures out.values[k] == r.values[k] {
      if k in TableKeys(w) {
        var i :| 0 <= i < |w| && TableKeys(w)[i] == k;
      }
    }
  }

  /** A key the keyword filter removes: its lower-cased form contains a keyword and it is not
      one of the exempted keys. */
  predicate Doomed(k: Key, keywords: seq<string>, exempt: set<Key>) {
    MatchesAny(k, keywords) && k !in exempt
  }

  /** The doomed keys of a key order, in that order. */
  function DoomedKeys(order: seq<Key>, keywords: seq<string>, exempt: set<Key>): (ks: seq<Key>)
    ensures forall k :: k in ks <==> k in order && Doomed(k, keywords, exempt)
    ensures Distinct(order) ==> Distinct(ks)
    decreases |order|
  {
    if |order| == 0 then []
    else
      var rest := DoomedKeys(order[1..], keywords, exempt);
      if Doomed(order[0], keywords, exempt) then
        assert Distinct(order) ==> order[0] !in order[1..];
        [order[0]] + rest
      else rest
  }

  /** The surviving keys of a key order, in that order. */
  function KeptKeys(order: seq<Key>, keywords: seq<string>, exempt: set<Key>): (ks: seq<Key>)
    ensures forall k :: k in ks <==> k in order && !Doomed(k, keywords, exempt)
    ensures Distinct(order) ==> Distinct(ks)
    ensures |ks| + |DoomedKeys(order, keywords, exempt)| == |order|
    decreases |order|
  {
    if |order| == 0 then []
    else
      var rest := KeptKeys(order[1..], keywords, exempt);
      if !Doomed(order[0], keywords, exempt) then
        assert Distinct(order) ==> order[0] !in order[1..];
        [order[0]] + rest
      else rest
  }

  /** The surviving keys keep their relative order. */
  lemma {:induction false} KeptKeysInOrder(order: seq<Key>, keywords: seq<string>, exempt: set<Key>)
    ensures Subsequence(KeptKeys(order, keywords, exempt), order)
    decreases |order|
  {
    if |order| > 0 {
      var rest := KeptKeys(order[1..], keywords, exempt);
      KeptKeysInOrder(order[1..], keywords, exempt);
      if !Doomed(order[0], keywords, exempt) {
        assert ([order[0]] + rest)[1..] == rest;
      } else if |rest| > 0 {
        assert rest[0] in rest;
      }
    }
  }

  /** The two-pass idiom of every stage: collect the keys whose lower-cased form contains one
      of `keywords` (other than `exempt` keys), then `del data[key]` for each. Returns the
      record and the removed keys. */
  function RemoveMatching(r: Record, keywords: seq<string>, exempt: set<Key>): (out: (Record, seq<Key>))
    ensures forall k :: k in out.0.values <==> k in r.values && !Doomed(k, keywords, exempt)
    ensures forall k | k in out.0.values :: out.0.values[k] == r.values[k]
    ensures forall k :: k in out.1 <==> k in r.values && Doomed(k, keywords, exempt)
    ensures Distinct(out.1)
    ensures |out.0.order| + |out.1| == |r.order|
    ensures out.0.order == KeptKeys(r.order, keywords, exempt)
    ensures Subsequence(out.0.order, r.order)
  {
    KeptKeysInOrder(r.order, keywords, exempt);
    var kept := KeptKeys(r.order, keywords, exempt);
    var raw := RawRecord(kept, map k | k in r.values && !Doomed(k, keywords, exempt) :: r.values[k]);
    assert raw.values.Keys == Elements(raw.order);
    (raw, DoomedKeys(r.order, keywords, exempt))
  }

  /** Nothing is removed exactly when no key of the record is doomed, and then the record is
      unchanged. */
  lemma RemoveNothing(r: Record, keywords: seq<string>, exempt: set<Key>)
    ensures |RemoveMatching(r, keywords, exempt).1| == 0 <==> forall k | k in r.values :: !Doomed(k, keywords, exempt)
    ensures |RemoveMatching(r, keywords, exempt).1| == 0 ==> RemoveMatching(r, keywords, exempt).0 == r
  {
    var out := RemoveMatching(r, keywords, exempt);
    if |out.1| == 0 {
      KeptAll(r.order, keywords, exempt);
      assert out.0.values == r.values;
    } else {
      assert out.1[0] in out.1;
    }
  }

  lemma {:induction false} KeptAll(order: seq<Key>, keywords: seq<string>, exempt: set<Key>)
    requires forall k | k in order :: !Doomed(k, keywords, exempt)
    ensures KeptKeys(order, keywords, exempt) == order
    decreases |order|
  {
    if |order| > 0 {
      KeptAll(order[1..], keywords, exempt);
      assert order == [order[0]] + order[1..];
    }
  }

  /** The removed count reported by a stage equals the number of distinct doomed keys. */
  lemma RemoveCount(r: Record, keywords: seq<string>, exempt: set<Key>)
    ensures |RemoveMatching(r, keywords, exempt).1| == |set k | k in r.values && Doomed(k, keywords, exempt)|
  {
    var gone := RemoveMatching(r, keywords, exempt).1;
    DistinctCardinality(gone);
    assert Elements(gone) == set k | k in r.values && Doomed(k, keywords, exempt);
  }
}

=== FILE: locations.dfy ===
/**
 * Where the program looks: the operating-system family `platform.system()` reports, path
 * joining as `pathlib` renders it with `str()`, and `get_qoder_data_dir`.
 */
module Locations {
  import opened Text

  /** `platform.system()`: "Windows", "Darwin", "Linux" or anything else. */
  datatype OsFamily = Windows | Darwin | Linux | OtherOs

  /** The separator `str()` of a concrete path uses. */
  function Separator(os: OsFamily): char {
    if os.Windows? then '\\' else '/'
  }

  /** `str(Path(dir) / name)` for a relative `name`: one separator between the two unless the
      directory already ends with one (a filesystem root). An empty directory text is
      `Path('')`, which pathlib renders as ".", and joining onto it yields `name` alone. */
  function JoinPath(dir: string, name: string, sep: char): (p: string)
    ensures |dir| > 0 ==> StartsWith(p, dir)
    ensures EndsWith(p, name)
  {
    if |dir| == 0 then name
    else if dir[|dir| - 1] == sep then dir + name
    else dir + [sep] + name
  }

  /** `Path(text)` rendered back with `str()`: the empty text becomes ".". */
  function PathText(text: string): string {
    if |text| == 0 then "." else text
  }

  /** `get_qoder_data_dir`: `AppData\Roaming\Qoder` under the home directory on Windows,
      and `Library/Application Support/Qoder` on every other system (the macOS layout is the
      fallback for Linux too). */
  function DataDir(os: OsFamily, home: string): (d: string)
    requires |home| > 0
    ensures StartsWith(d, home)
    ensures EndsWith(d, [Separator(os)] + "Qoder")
  {
    var sep := Separator(os);
    var parent := if os.Windows? then JoinPath(JoinPath(home, "AppData", sep), "Roaming", sep)
                  else JoinPath(JoinPath(home, "Library", sep), "Application Support", sep);
    assert parent[|parent| - 1] != sep;
    parent + [sep] + "Qoder"
  }

  /** Every non-Windows system gets the same data directory. */
  lemma DataDirFallback(home: string, os1: OsFamily, os2: OsFamily)
    requires |home| > 0 && !os1.Windows? && !os2.Windows?
    ensures DataDir(os1, home) == DataDir(os2, home)
  {
  }

  /** The lower-cased data directory contains "qoder", and so does the lower-cased form of
      every path that starts with it. */
  lemma {:induction false} UnderDataDirMentionsQoder(os: OsFamily, home: string, path: string)
    requires |home| > 0 && StartsWith(path, DataDir(os, home))
    ensures Contains(Lower(path), "qoder")
  {
    var d := DataDir(os, home);
    var head := d[..|d| - 5];
    assert d == head + "Qoder";
    QoderLowered("Qoder");
    LowerConcat(head, "Qoder");
    ContainsAtOffset(Lower(d), "qoder", |Lower(head)|);
    var rest := path[|d|..];
    assert path == d + rest;
    LowerConcat(d, rest);
    ContainsInLeft(Lower(d), Lower(rest), "qoder");
  }

  lemma QoderLowered(s: string)
    requires s == "Qoder"
    ensures Lower(s) == "qoder"
  {
    LowerPointwise(s);
  }
}

=== FILE: process_listing.dfy ===
/**
 * How `check_qoder_running` turns the output of the process-listing tools into a PID list:
 * the one-line `csv.reader` parse of `tasklist /FO CSV` rows, the `ProcessId=` lines of
 * `wmic /format:value`, the lines of `pgrep`, the `ps` confirmation of fuzzy matches, and the
 * final de-duplication. The tools themselves are inputs: each call is given by its result.
 */
module ProcessListing {
  import opened Common
  import opened Text

  /* ---------------------------------------------------------------- csv.reader, default dialect */

  /** The parser states of CPython's `csv` module that the default dialect (delimiter ',',
      quote '"', doubled quotes, no escape character, not strict) can reach. */
  datatype CsvState = StartRecord | StartField | InField | InQuoted | QuoteInQuoted | EatCrnl

  /** The parser: its state, the fields saved so far and the field being read; or the
      exception it raised. */
  datatype CsvParser = CsvParser(state: CsvState, fields: seq<string>, field: string) | CsvFailed

  predicate IsLineBreak(c: char) {
    c == '\n' || c == '\r'
  }

  /** A character where a field begins. */
  function BeginField(fields: seq<string>, c: char): CsvParser {
    if IsLineBreak(c) then CsvParser(EatCrnl, fields + [""], "")
    else if c == '"' then CsvParser(InQuoted, fields, "")
    else if c == ',' then CsvParser(StartField, fields + [""], "")
    else CsvParser(InField, fields, [c])
  }

  /** One character of the line. */
  function Feed(p: CsvParser, c: char): CsvParser {
    match p
    case CsvFailed => CsvFailed
    case CsvParser(state, fields, field) =>
      match state
      case StartRecord => if IsLineBreak(c) then CsvParser(EatCrnl, fields, field) else BeginField(fields, c)
      case StartField => BeginField(fields, c)
      case InField =>
        if IsLineBreak(c) then CsvParser(EatCrnl, fields + [field], "")
        else if c == ',' then CsvParser(StartField, fields + [field], "")
        else CsvParser(InField, fields, field + [c])
      case InQuoted =>
        if c == '"' then CsvParser(QuoteInQuoted, fields, field) else CsvParser(InQuoted, fields, field + [c])
      case QuoteInQuoted =>
        if c == '"' then CsvParser(InQuoted, fields, field + [c])
        else if c == ',' then CsvParser(StartField, fields + [field], "")
        else if IsLineBreak(c) then CsvParser(EatCrnl, fields + [field], "")
        else CsvParser(InField, fields, field + [c])
      case EatCrnl => if IsLineBreak(c) then p else CsvFailed
  }

  /** The end-of-line step after the line's characters. */
  function EndLine(p: CsvParser): CsvParser {
    match p
    case CsvFailed => CsvFailed
    case CsvParser(state, fields, field) =>
      match state
      case StartRecord => p
      case InQuoted => p
      case EatCrnl => CsvParser(StartRecord, fields, field)
      case _ => CsvParser(StartRecord, fields + [field], "")
  }

  function FeedAll(p: CsvParser, s: string): CsvParser
    decreases |s|
  {
    if |s| == 0 then p else FeedAll(Feed(p, s[0]), s[1..])
  }

  /** `next(csv.reader(io.StringIO(line)))` for a line without '\n' (the whole line is one
      input line): the record, or `None` when the parse raises. A quoted field still open at
      the end of the input is saved as it stands. */
  function FirstRecord(line: string): Option<seq<string>> {
    match EndLine(FeedAll(CsvParser(StartRecord, [], ""), line))
    case CsvFailed => None
    case CsvParser(state, fields, field) =>
      if state == StartRecord then Some(fields)
      else if |field| > 0 || state == InQuoted then Some(fields + [field])
      else None
  }

  /** A carriage return ends an unquoted field, and any character after it is an error. */
  lemma {:induction false} CsvRejectsBareCarriageReturn()
    ensures FirstRecord("a\rb") == None
  {
    var p0 := CsvParser(StartRecord, [], "");
    var p1 := CsvParser(InField, [], "a");
    var p2 := CsvParser(EatCrnl, ["a"], "");
    assert Feed(p0, 'a') == p1;
    assert Feed(p1, '\r') == p2;
    assert Feed(p2, 'b') == CsvFailed;
    assert FeedAll(p0, "a\rb") == FeedAll(p1, "\rb") == FeedAll(p2, "b") == FeedAll(CsvFailed, "");
  }

  /** A field as `csv.writer` writes it with every field quoted: inner quotes doubled. */
  function Quote(f: string): string {
    "\"" + DoubleQuotes(f) + "\""
  }

  function DoubleQuotes(f: string): string
    decreases |f|
  {
    if |f| == 0 then ""
    else (if f[0] == '"' then "\"\"" else [f[0]]) + DoubleQuotes(f[1..])
  }

  function QuoteAll(fields: seq<string>): (qs: seq<string>)
    ensures |qs| == |fields|
    ensures forall i | 0 <= i < |fields| :: qs[i] == Quote(fields[i])
  {
    if |fields| == 0 then [] else [Quote(fields[0])] + QuoteAll(fields[1..])
  }

  /** A row of fully quoted fields reads back as the same fields, whatever they hold. */
  lemma {:induction false} CsvQuotedRoundTrip(fields: seq<string>)
    requires |fields| >= 1
    ensures FirstRecord(Join(QuoteAll(fields), ',')) == Some(fields)
  {
    var init, last := fields[..|fields| - 1], fields[|fields| - 1];
    assert fields == init + [last];
    QuotedRecord(init, last);
  }

  lemma {:induction false} QuotedRecord(init: seq<string>, last: string)
    ensures FirstRecord(Join(QuoteAll(init + [last]), ',')) == Some(init + [last])
  {
    QuotedFields(StartRecord, [], init, last);
    assert [] + init == init;
    RecordAfterClosingQuote(Join(QuoteAll(init + [last]), ','), init, last);
  }

  /** A line read up to a closing quote ends a record holding the fields read. */
  lemma {:induction false} RecordAfterClosingQuote(line: string, init: seq<string>, last: string)
    requires FeedAll(CsvParser(StartRecord, [], ""), line) == CsvParser(QuoteInQuoted, init, last)
    ensures FirstRecord(line) == Some(init + [last])
  {
  }

  lemma {:induction false} FeedAllAppend(p: CsvParser, a: string, b: string)
    ensures FeedAll(p, a + b) == FeedAll(FeedAll(p, a), b)
    decreases |a|
  {
    if |a| > 0 {
      assert (a + b)[0] == a[0];
      assert (a + b)[1..] == a[1..] + b;
      FeedAllAppend(Feed(p, a[0]), a[1..], b);
    } else {
      assert a + b == b;
    }
  }

  /** Inside quotes, a doubled-quote body and the closing quote read back one field. */
  lemma {:induction false} QuotedBody(fields: seq<string>, acc: string, f: string)
    ensures FeedAll(CsvParser(InQuoted, fields, acc), DoubleQuotes(f) + "\"") == CsvParser(QuoteInQuoted, fields, acc + f)
    decreases |f|
  {
    if |f| > 0 {
      var head := if f[0] == '"' then "\"\"" else [f[0]];
      assert DoubleQuotes(f) + "\"" == head + (DoubleQuotes(f[1..]) + "\"");
      FeedAllAppend(CsvParser(InQuoted, fields, acc), head, DoubleQuotes(f[1..]) + "\"");
      QuotedChar(fields, acc, f[0]);
      QuotedBody(fields, acc + [f[0]], f[1..]);
      assert acc + [f[0]] + f[1..] == acc + f;
    } else {
      assert acc + f == acc;
    }
  }

  /** One character of a quoted body, a doubled quote standing for one quote. */
  lemma {:induction false} QuotedChar(fields: seq<string>, acc: string, c: char)
    ensures FeedAll(CsvParser(InQuoted, fields, acc), if c == '"' then "\"\"" else [c]) == CsvParser(InQuoted, fields, acc + [c])
  {
    var p := CsvParser(InQuoted, fields, acc);
    if c == '"' {
      var q := Feed(p, '"');
      assert q == CsvParser(QuoteInQuoted, fields, acc);
      assert Feed(q, '"') == CsvParser(InQuoted, fields, acc + [c]);
      assert FeedAll(p, "\"\"") == FeedAll(q, "\"") == FeedAll(Feed(q, '"'), "");
    } else {
      assert FeedAll(p, [c]) == FeedAll(Feed(p, c), "");
    }
  }

  lemma {:induction false} QuotedField(state: CsvState, fields: seq<string>, f: string)
    requires state == StartRecord || state == StartField
    ensures FeedAll(CsvParser(state, fields, ""), Quote(f)) == CsvParser(QuoteInQuoted, fields, f)
  {
    assert Quote(f) == "\"" + (DoubleQuotes(f) + "\"");
    FeedAllAppend(CsvParser(state, fields, ""), "\"", DoubleQuotes(f) + "\"");
    QuotedBody(fields, "", f);
    assert "" + f == f;
  }

  lemma {:induction false} QuotedFields(state: CsvState, done: seq<string>, init: seq<string>, last: string)
    requires state == StartRecord || state == StartField
    ensures FeedAll(CsvParser(state, done, ""), Join(QuoteAll(init + [last]), ',')) == CsvParser(QuoteInQuoted, done + init, last)
    decreases |init|
  {
    var fields := init + [last];
    if |init| == 0 {
      assert fields == [last];
      QuotedField(state, done, last);
      assert done + init == done;
    } else {
      var f0 := init[0];
      var tail := init[1..] + [last];
      assert fields[1..] == tail;
      var rest := Join(QuoteAll(tail), ',');
      var p0 := CsvParser(state, done, "");
      var p2 := CsvParser(StartField, done + [f0], "");
      assert FeedAll(p0, Join(QuoteAll(fields), ',')) == FeedAll(p2, rest) by {
        JoinQuoted(fields);
        FeedAllAppend(p0, Quote(f0), [','] + rest);
        QuotedField(state, done, f0);
        AfterQuotedComma(done, f0, rest);
      }
      QuotedFields(StartField, done + [f0], init[1..], last);
      assert done + [f0] + init[1..] == done + init;
    }
  }

  lemma {:induction false} JoinQuoted(fields: seq<string>)
    requires |fields| >= 2
    ensures Join(QuoteAll(fields), ',') == Quote(fields[0]) + ([','] + Join(QuoteAll(fields[1..]), ','))
  {
    var qs := QuoteAll(fields);
    assert qs[1..] == QuoteAll(fields[1..]);
  }

  /** A comma after a closing quote saves the field. */
  lemma {:induction false} AfterQuotedComma(done: seq<string>, f: string, rest: string)
    ensures FeedAll(CsvParser(QuoteInQuoted, done, f), [','] + rest) == FeedAll(CsvParser(StartField, done + [f], ""), rest)
  {
    assert ([','] + rest)[0] == ',';
    assert ([','] + rest)[1..] == rest;
  }

  /* ---------------------------------------------------------------- tasklist */

  /** The image names searched for, as written; the comparison lower-cases each. */
  const KnownNames: seq<string> := ["qoder.exe", "qoder", "qoder.exe", "qoder-app.exe"]

  predicate IsKnownImage(nameLower: string) {
    exists k | k in KnownNames :: Lower(k) == nameLower
  }

  /** One line of `tasklist /FO CSV /NH` output: skipped when blank or unparsable; a PID when
      the row has at least two fields, the quote-stripped, lower-cased first field is a known
      image name and the quote-stripped second field is all digits. */
  function TasklistLinePid(rawLine: string): (pid: Option<string>)
    ensures pid.Some? ==> IsDigits(pid.value)
    ensures pid.Some? ==>
      var rec := FirstRecord(Strip(rawLine));
      && rec.Some? && |rec.value| >= 2
      && IsKnownImage(Lower(Trim(rec.value[0], {'"'})))
      && pid.value == Trim(rec.value[1], {'"'})
  {
    var line := Strip(rawLine);
    if |line| == 0 then None
    else match FirstRecord(line)
      case None => None
      case Some(row) =>
        if |row| >= 2 && IsKnownImage(Lower(Trim(row[0], {'"'}))) && IsDigits(Trim(row[1], {'"'}))
        then Some(Trim(row[1], {'"'}))
        else None
  }

  /** A `tasklist` row as the tool writes it reads back its PID exactly when the image name is
      a known one and the PID field is all digits. */
  lemma {:induction false} TasklistRowPid(image: string, pid: string, rest: seq<string>)
    requires Trim(image, {'"'}) == image && Trim(pid, {'"'}) == pid
    ensures TasklistLinePid(Join(QuoteAll([image, pid] + rest), ',')) ==
      if IsKnownImage(Lower(image)) && IsDigits(pid) then Some(pid) else None
  {
    var row := [image, pid] + rest;
    QuotedRowReads(row);
    assert row[0] == image && row[1] == pid;
  }

  /** A row of quoted fields is already stripped, and reads back as the row. */
  lemma {:induction false} QuotedRowReads(row: seq<string>)
    requires |row| >= 1
    ensures var line := Join(QuoteAll(row), ',');
      |line| > 0 && Strip(line) == line && FirstRecord(line) == Some(row)
  {
    var line := Join(QuoteAll(row), ',');
    JoinEnds(QuoteAll(row), ',');
    assert line[0] == '"';
    var last := Quote(row[|row| - 1]);
    assert line[|line| - 1] == last[|last| - 1] == '"';
    TrimIdle(line, Whitespace);
    CsvQuotedRoundTrip(row);
  }

  /** The PIDs of a `tasklist` output, line by line. */
  function TasklistPids(stdout: string): (pids: seq<string>)
    ensures forall p | p in pids :: IsDigits(p)
  {
    CollectPids(Split(stdout, '\n'), TasklistLinePid)
  }

  function CollectPids(lines: seq<string>, parse: string -> Option<string>): (pids: seq<string>)
    ensures forall p | p in pids :: exists l | l in lines :: parse(l) == Some(p)
    decreases |lines|
  {
    if |lines| == 0 then []
    else
      var rest := CollectPids(lines[1..], parse);
      match parse(lines[0])
      case None => rest
      case Some(p) => [p] + rest
  }

  /* ---------------------------------------------------------------- wmic */

  /** One line of `wmic ... get ProcessId /format:value`: a stripped line starting with
      "ProcessId=" gives the stripped text between the first and second '=', if it is all
      digits. */
  function WmicLinePid(rawLine: string): (pid: Option<string>)
    ensures pid.Some? ==> IsDigits(pid.value) && StartsWith(Strip(rawLine), "ProcessId=")
  {
    var line := Strip(rawLine);
    if StartsWith(line, "ProcessId=") then
      SplitAfterPiece("ProcessId", '=', line[10..]);
      assert line == "ProcessId" + ['='] + line[10..];
      var value := Strip(Split(line, '=')[1]);
      if IsDigits(value) then Some(value) else None
    else None
  }

  /** A stripped `ProcessId=` line gives the stripped text up to the next '=', if that is all
      digits. */
  lemma {:induction false} WmicReadsFirstPiece(rest: string)
    requires Strip("ProcessId=" + rest) == "ProcessId=" + rest
    ensures WmicLinePid("ProcessId=" + rest) ==
      var value := Strip(Split(rest, '=')[0]); if IsDigits(value) then Some(value) else None
  {
    var line := "ProcessId=" + rest;
    assert StartsWith(line, "ProcessId=");
    assert line[10..] == rest;
    assert line == "ProcessId" + ['='] + rest;
    SplitAfterPiece("ProcessId", '=', rest);
  }

  /** `ProcessId=<n>` reads back `str(n)`. */
  lemma {:induction false} WmicRoundTrip(n: nat)
    ensures WmicLinePid("ProcessId=" + NatToDecimal(n)) == Some(NatToDecimal(n))
  {
    var digits := NatToDecimal(n);
    StripWmicLine(digits);
    DigitsHaveNoSeparator(digits, '=');
    SplitWithoutSeparator(digits, '=');
    StripDigits(digits);
    WmicReadsFirstPiece(digits);
  }

  /** Only the text up to a second '=' is read: "ProcessId=12=junk" gives "12". */
  lemma {:induction false} WmicIgnoresAfterSecondEquals(digits: string, junk: string)
    requires IsDigits(digits)
    requires |junk| == 0 || junk[|junk| - 1] !in Whitespace
    ensures WmicLinePid("ProcessId=" + (digits + ['='] + junk)) == Some(digits)
  {
    var rest := digits + ['='] + junk;
    assert rest[|rest| - 1] !in Whitespace;
    StripWmicLine(rest);
    DigitsHaveNoSeparator(digits, '=');
    SplitAfterPiece(digits, '=', junk);
    StripDigits(digits);
    WmicReadsFirstPiece(rest);
  }

  lemma StripWmicLine(rest: string)
    requires |rest| > 0 && rest[|rest| - 1] !in Whitespace
    ensures Strip("ProcessId=" + rest) == "ProcessId=" + rest
  {
    var line := "ProcessId=" + rest;
    assert line[0] == 'P' && line[|line| - 1] == rest[|rest| - 1];
    TrimIdle(line, Whitespace);
  }

  lemma StripDigits(d: string)
    requires IsDigits(d)
    ensures Strip(d) == d
  {
    assert IsDigitChar(d[0]) && IsDigitChar(d[|d| - 1]);
    TrimIdle(d, Whitespace);
  }

  lemma DigitsHaveNoSeparator(d: string, sep: char)
    requires IsDigits(d) && !IsDigitChar(sep)
    ensures sep !in d
  {
    assert forall i | 0 <= i < |d| :: IsDigitChar(d[i]);
  }

  function WmicPids(stdout: string): (pids: seq<string>)
    ensures forall p | p in pids :: IsDigits(p)
  {
    CollectPids(Split(stdout, '\n'), WmicLinePid)
  }

  /* ---------------------------------------------------------------- pgrep and ps */

  /** `[p.strip() for p in stdout.strip().split('\n') if p.strip()]`: no digit check. */
  function PgrepPids(stdout: string): (pids: seq<string>)
    ensures forall p | p in pids :: p != ""
  {
    NonBlank(Split(Strip(stdout), '\n'))
  }

  function NonBlank(lines: seq<string>): (kept: seq<string>)
    ensures forall p | p in kept :: p != "" && exists l | l in lines :: Strip(l) == p
    decreases |lines|
  {
    if |lines| == 0 then []
    else if |Strip(lines[0])| == 0 then NonBlank(lines[1..])
    else [Strip(lines[0])] + NonBlank(lines[1..])
  }

  /** Output with one PID per line reads back those PIDs in order. */
  lemma {:induction false} PgrepRoundTrip(pids: seq<string>)
    requires |pids| >= 1
    requires forall i | 0 <= i < |pids| :: IsDigits(pids[i])
    ensures PgrepPids(Join(pids, '\n')) == pids
  {
    var out := Join(pids, '\n');
    JoinEnds(pids, '\n');
    var last := pids[|pids| - 1];
    assert out[|out| - 1] == last[|last| - 1];
    assert IsDigitChar(out[0]) by {
      assert out[0] == pids[0][0];
    }
    TrimIdle(out, Whitespace);
    forall i | 0 <= i < |pids| ensures '\n' !in pids[i] {
      assert forall j | 0 <= j < |pids[i]| :: IsDigitChar(pids[i][j]);
    }
    SplitJoin(pids, '\n');
    NonBlankDigits(pids);
  }

  lemma {:induction false} NonBlankDigits(pids: seq<string>)
    requires forall i | 0 <= i < |pids| :: IsDigits(pids[i])
    ensures NonBlank(pids) == pids
    decreases |pids|
  {
    if |pids| > 0 {
      var p := pids[0];
      assert IsDigits(p);
      TrimIdle(p, Whitespace);
      NonBlankDigits(pids[1..]);
      assert pids == [p] + pids[1..];
    }
  }

  /** What a tool call gave: its exit code and standard output, or an exception. */
  datatype CommandResult = Ran(returncode: int, stdout: string) | Threw

  /** `ps -p <pid> -o comm=` confirms a fuzzy match when it succeeds and its output names
      Qoder; when the call raises, the PID is kept all the same. */
  predicate Confirmed(ps: string -> CommandResult, pid: string) {
    ps(pid).Threw? || (ps(pid).returncode == 0 && Contains(ps(pid).stdout, "Qoder"))
  }

  function FuzzyConfirmed(pids: seq<string>, ps: string -> CommandResult): (kept: seq<string>)
    ensures forall p :: p in kept <==> p in pids && Confirmed(ps, p)
    decreases |pids|
  {
    if |pids| == 0 then []
    else if Confirmed(ps, pids[0]) then [pids[0]] + FuzzyConfirmed(pids[1..], ps)
    else FuzzyConfirmed(pids[1..], ps)
  }

  /* ---------------------------------------------------------------- the search chains */

  /** The tool results one search sees: on Windows `tasklist` and `wmic` per image name; on
      every other system the exact and fuzzy `pgrep` and `ps` per PID. */
  datatype Probes =
    | WindowsProbes(tasklist: string -> CommandResult, wmic: string -> CommandResult)
    | PosixProbes(exact: CommandResult, fuzzy: CommandResult, ps: string -> CommandResult)

  predicate Found(r: CommandResult) {
    r.Ran? && r.returncode == 0 && |Strip(r.stdout)| > 0
  }

  /** How one probe in a chain of probes turns out: it ends the chain with a result, it is
      passed over, or it raises and ends the chain with nothing. */
  datatype Step = Hit | Miss | Halt

  /** Whether `names[i]` is the first hit of the chain, with only misses before it. */
  predicate FirstHit(names: seq<string>, step: string -> Step, i: int) {
    && 0 <= i < |names|
    && step(names[i]) == Hit
    && forall j | 0 <= j < i :: step(names[j]) == Miss
  }

  /** Past a first name that misses, the first hit of the rest is the first hit of the whole,
      one position later. */
  lemma FirstHitShift(names: seq<string>, step: string -> Step)
    requires |names| > 0 && step(names[0]) == Miss
    ensures forall i | FirstHit(names, step, i) :: i > 0 && FirstHit(names[1..], step, i - 1)
    ensures forall i | FirstHit(names[1..], step, i) :: FirstHit(names, step, i + 1)
  {
    assert forall i | 1 <= i < |names| :: names[i] == names[1..][i - 1];
  }

  /** A `tasklist` result ends the search when the run raised or found a listing. */
  predicate Stops(r: CommandResult) {
    r.Threw? || Found(r)
  }

  function TasklistSteps(tasklist: string -> CommandResult): string -> Step {
    n => if Stops(tasklist(n)) then Hit else Miss
  }

  /** The names `tasklist` is run for, in order, when nothing stops the search earlier. */
  const TasklistOrder: seq<string> := ["Qoder.exe"] + KnownNames

  /** `tasklist` for "Qoder.exe" and, unless that finds something, for each known name in
      turn until one does; the last result is the one parsed. */
  function TasklistSearch(tasklist: string -> CommandResult): (r: CommandResult)
    ensures forall i | FirstHit(TasklistOrder, TasklistSteps(tasklist), i) :: r == tasklist(TasklistOrder[i])
    ensures (forall i | 0 <= i < |TasklistOrder| :: !Stops(tasklist(TasklistOrder[i]))) ==>
      r == tasklist(TasklistOrder[|TasklistOrder| - 1])
    ensures Stops(r) <==> exists i :: FirstHit(TasklistOrder, TasklistSteps(tasklist), i)
  {
    var first := tasklist("Qoder.exe");
    assert TasklistOrder[0] == "Qoder.exe" && TasklistOrder[1..] == KnownNames;
    if first.Threw? || Found(first) then
      HitStarts(TasklistOrder, TasklistSteps(tasklist));
      first
    else
      var r := TasklistRetry(tasklist, KnownNames, first);
      FirstHitShift(TasklistOrder, TasklistSteps(tasklist));
      assert forall i | 1 <= i < |TasklistOrder| :: TasklistOrder[i] == KnownNames[i - 1];
      r
  }

  function TasklistRetry(tasklist: string -> CommandResult, names: seq<string>, last: CommandResult): (r: CommandResult)
    requires !Stops(last)
    ensures forall i | FirstHit(names, TasklistSteps(tasklist), i) :: r == tasklist(names[i])
    ensures (forall i | 0 <= i < |names| :: !Stops(tasklist(names[i]))) ==>
      r == if |names| == 0 then last else tasklist(names[|names| - 1])
    ensures Stops(r) <==> exists i :: FirstHit(names, TasklistSteps(tasklist), i)
    decreases |names|
  {
    if |names| == 0 then last
    else
      var r := tasklist(names[0]);
      if r.Threw? || Found(r) then
        HitStarts(names, TasklistSteps(tasklist));
        r
      else
        var out := TasklistRetry(tasklist, names[1..], r);
        FirstHitShift(names, TasklistSteps(tasklist));
        assert forall i | 1 <= i < |names| :: names[i] == names[1..][i - 1];
        out
  }

  /** A `wmic` run yields a hit when it prints a PID, and halts the search when it raises. */
  function WmicStep(r: CommandResult): Step {
    if r.Threw? then Halt
    else if r.returncode == 0 && |WmicPids(r.stdout)| > 0 then Hit
    else Miss
  }

  function WmicSteps(wmic: string -> CommandResult): string -> Step {
    n => WmicStep(wmic(n))
  }

  /** `wmic` per known name, stopping at the first that yields a PID; an exception ends the
      search with nothing. */
  function WmicSearch(wmic: string -> CommandResult, names: seq<string>): (pids: seq<string>)
    ensures forall p | p in pids :: IsDigits(p)
    ensures forall i | FirstHit(names, WmicSteps(wmic), i) :: pids == WmicPids(wmic(names[i]).stdout)
    ensures |pids| > 0 <==> exists i :: FirstHit(names, WmicSteps(wmic), i)
    decreases |names|
  {
    if |names| == 0 then []
    else
      var r := wmic(names[0]);
      if r.Threw? then
        HaltEnds(names, WmicSteps(wmic));
        []
      else
        var found := if r.returncode == 0 then WmicPids(r.stdout) else [];
        if |found| > 0 then
          HitStarts(names, WmicSteps(wmic));
          found
        else
          var rest := WmicSearch(wmic, names[1..]);
          FirstHitShift(names, WmicSteps(wmic));
          rest
  }

  /** A chain whose first probe halts has no hit. */
  lemma HaltEnds(names: seq<string>, step: string -> Step)
    requires |names| > 0 && step(names[0]) == Halt
    ensures forall i :: !FirstHit(names, step, i)
  {
    forall i ensures !FirstHit(names, step, i) {
      if 0 < i < |names| {
        assert step(names[0]) != Miss;
      }
    }
  }

  /** A chain whose first probe hits has its first hit there. */
  lemma HitStarts(names: seq<string>, step: string -> Step)
    requires |names| > 0 && step(names[0]) == Hit
    ensures FirstHit(names, step, 0)
    ensures forall i | FirstHit(names, step, i) :: i == 0
  {
    forall i | 0 < i < |names| ensures !FirstHit(names, step, i) {
      assert step(names[0]) != Miss;
    }
  }

  /** The PIDs the search collects before de-duplication. On Windows an exception from a tool
      ends the search with what was collected, which is then nothing. */
  function Candidates(probes: Probes): seq<string> {
    match probes
    case WindowsProbes(tasklist, wmic) => WindowsCandidates(tasklist, wmic)
    case PosixProbes(exact, fuzzy, ps) => PosixCandidates(exact, fuzzy, ps)
  }

  function WindowsCandidates(tasklist: string -> CommandResult, wmic: string -> CommandResult): seq<string> {
    var t := TasklistSearch(tasklist);
    if t.Threw? then []
    else
      var fromTasklist := if t.returncode == 0 then TasklistPids(t.stdout) else [];
      if |fromTasklist| > 0 then fromTasklist else WmicSearch(wmic, KnownNames)
  }

  /** `pgrep -x Qoder`; when it fails, `pgrep -f Qoder` with each match checked by `ps`. */
  function PosixCandidates(exact: CommandResult, fuzzy: CommandResult, ps: string -> CommandResult): seq<string> {
    if exact.Threw? then []
    else if exact.returncode == 0 then PgrepPids(exact.stdout)
    else if fuzzy.Threw? || fuzzy.returncode != 0 then []
    else FuzzyConfirmed(PgrepPids(fuzzy.stdout), ps)
  }

  /** `wmic` is consulted only as a fallback: once the `tasklist` search raises or yields a
      PID, the `wmic` results make no difference. */
  lemma {:induction false} TasklistPreemptsWmic(tasklist: string -> CommandResult,
                                                wmic: string -> CommandResult, wmic': string -> CommandResult)
    requires var t := TasklistSearch(tasklist);
      t.Threw? || (t.returncode == 0 && |TasklistPids(t.stdout)| > 0)
    ensures WindowsCandidates(tasklist, wmic) == WindowsCandidates(tasklist, wmic')
  {
  }

  /** `pgrep -f` and the `ps` checks are consulted only as a fallback: once `pgrep -x` raises or
      succeeds, their results make no difference. */
  lemma {:induction false} ExactPreemptsFuzzy(exact: CommandResult, fuzzy: CommandResult, ps: string -> CommandResult,
                                              fuzzy': CommandResult, ps': string -> CommandResult)
    requires exact.Threw? || exact.returncode == 0
    ensures PosixCandidates(exact, fuzzy, ps) == PosixCandidates(exact, fuzzy', ps')
  {
  }

  /** Every PID the Windows search collects is all digits. */
  lemma {:induction false} WindowsCandidatesAreDigits(tasklist: string -> CommandResult, wmic: string -> CommandResult)
    ensures forall p | p in Candidates(WindowsProbes(tasklist, wmic)) :: IsDigits(p)
  {
  }

  /* ---------------------------------------------------------------- de-duplication */

  /** `list(set(p for p in pids if p))`. Python's set order is not specified; this keeps the
      last occurrence of each PID. */
  function Dedup(pids: seq<string>): (out: seq<string>)
    ensures Distinct(out)
    ensures forall p :: p in out <==> p in pids && p != ""
    decreases |pids|
  {
    if |pids| == 0 then []
    else
      var rest := Dedup(pids[1..]);
      if pids[0] == "" || pids[0] in rest then rest else [pids[0]] + rest
  }

  /** `check_qoder_running`: whether Qoder runs, and its PIDs. */
  function CheckRunning(probes: Probes): (result: (bool, seq<string>))
    ensures result.0 <==> |result.1| > 0
    ensures Distinct(result.1)
    ensures forall p :: p in result.1 <==> p in Candidates(probes) && p != ""
  {
    var pids := Dedup(Candidates(probes));
    (|pids| > 0, pids)
  }

  lemma {:induction false} CheckRunningSingle(probes: Probes, pid: string)
    requires Candidates(probes) == [pid] && pid != ""
    ensures CheckRunning(probes) == (true, [pid])
  {
    assert Dedup([pid]) == [pid];
  }

  /** On Windows every reported PID is all digits. */
  lemma {:induction false} WindowsPidsAreDigits(tasklist: string -> CommandResult, wmic: string -> CommandResult)
    ensures forall p | p in CheckRunning(WindowsProbes(tasklist, wmic)).1 :: IsDigits(p)
  {
    WindowsCandidatesAreDigits(tasklist, wmic);
  }

  /** Elsewhere `pgrep` output is not checked for digits: a line such as "abc" is reported as
      a PID. */
  lemma {:induction false} PosixKeepsNonNumericPid(line: string, fuzzy: CommandResult, ps: string -> CommandResult)
    requires |line| > 0 && forall i | 0 <= i < |line| :: '!' <= line[i] <= '~'
    requires !IsDigits(line)
    ensures CheckRunning(PosixProbes(Ran(0, line), fuzzy, ps)) == (true, [line])
  {
    var probes := PosixProbes(Ran(0, line), fuzzy, ps);
    assert Candidates(probes) == PgrepPids(line) by {
      ExactPath(line, fuzzy, ps);
    }
    assert PgrepPids(line) == [line] by {
      PgrepSingleLine(line);
    }
    assert line != "" by {
      assert |line| > 0;
    }
    CheckRunningSingle(probes, line);
  }

  /** A single line of visible ASCII characters is read back as one PID, whatever it holds. */
  lemma {:induction false} PgrepSingleLine(line: string)
    requires |line| > 0 && forall i | 0 <= i < |line| :: '!' <= line[i] <= '~'
    ensures PgrepPids(line) == [line]
  {
    VisibleIsNotWhitespace(line[0]);
    VisibleIsNotWhitespace(line[|line| - 1]);
    TrimIdle(line, Whitespace);
    assert '\n' !in line;
    SplitWithoutSeparator(line, '\n');
    assert NonBlank([line]) == [line];
  }

  /** A fuzzy match whose `ps` check raises is reported as running Qoder. */
  lemma {:induction false} FuzzyKeepsUnverifiedPid(exact: CommandResult, pid: string, ps: string -> CommandResult)
    requires exact.Ran? && exact.returncode != 0
    requires IsDigits(pid) && ps(pid).Threw?
    ensures CheckRunning(PosixProbes(exact, Ran(0, pid), ps)) == (true, [pid])
  {
    var probes := PosixProbes(exact, Ran(0, pid), ps);
    FuzzyCandidates(exact, pid, ps);
    assert pid != "" by {
      assert |pid| > 0;
    }
    CheckRunningSingle(probes, pid);
  }

  lemma {:induction false} FuzzyCandidates(exact: CommandResult, pid: string, ps: string -> CommandResult)
    requires exact.Ran? && exact.returncode != 0
    requires IsDigits(pid) && ps(pid).Threw?
    ensures Candidates(PosixProbes(exact, Ran(0, pid), ps)) == [pid]
  {
    assert Candidates(PosixProbes(exact, Ran(0, pid), ps)) == FuzzyConfirmed(PgrepPids(pid), ps) by {
      FuzzyPath(exact, pid, ps);
    }
    assert PgrepPids(pid) == [pid] by {
      PgrepSingle(pid);
    }
    assert FuzzyConfirmed([pid], ps) == [pid] by {
      ConfirmedSingle(pid, ps);
    }
  }

  /** When the exact search succeeds, its lines are the PIDs. */
  lemma ExactPath(stdout: string, fuzzy: CommandResult, ps: string -> CommandResult)
    ensures Candidates(PosixProbes(Ran(0, stdout), fuzzy, ps)) == PgrepPids(stdout)
  {
  }

  /** When the exact search fails and the fuzzy one succeeds, the fuzzy matches are checked. */
  lemma FuzzyPath(exact: CommandResult, stdout: string, ps: string -> CommandResult)
    requires exact.Ran? && exact.returncode != 0
    ensures Candidates(PosixProbes(exact, Ran(0, stdout), ps)) == FuzzyConfirmed(PgrepPids(stdout), ps)
  {
  }

  lemma ConfirmedSingle(pid: string, ps: string -> CommandResult)
    requires Confirmed(ps, pid)
    ensures FuzzyConfirmed([pid], ps) == [pid]
  {
    assert [pid][1..] == [];
  }

  lemma {:induction false} PgrepSingle(pid: string)
    requires IsDigits(pid)
    ensures PgrepPids(pid) == [pid]
  {
    PgrepRoundTrip([pid]);
    assert Join([pid], '\n') == pid;
  }
}

=== FILE: record_stages.dfy ===
/**
 * The stages that read, edit and rewrite the identity record `User/globalStorage/storage.json`:
 * the telemetry rewrite of the full reset, the login-identity cleanup, the hardware-fingerprint
 * reset and the chat-history clearing, and the order in which the full reset runs them.
 */
module RecordStages {
  import opened Common
  import opened Text
  import opened IdentityRecord
  import opened Identifiers

  /** storage.json as a stage finds it: absent, present but not a JSON object (unparsable text,
      or a JSON array, string or number), or a parsed object. */
  datatype StorageFile = Missing | Malformed | Parsed(record: Record)

  /** What a stage that swallows its own errors leaves behind: the file, whether it was
      rewritten, and what the stage adds to its running counter. */
  datatype StageOutcome = StageOutcome(file: StorageFile, written: bool, counted: nat)

  /** What a stage whose errors escape leaves behind: the file, or an abort of the caller. */
  datatype StageResult = Completed(file: StorageFile) | Aborted

  /* ---------------------------------------------------------------- login cleanup */

  const LoginKeywords: seq<string> :=
    ["login", "auth", "token", "credential", "session", "nonce", "challenge", "device", "account", "user"]

  /** Step 4 of the login-identity cleanup: delete every key whose lower-cased form contains a
      login keyword; write the file back and count the keys only when there was one. A file
      that is missing or not an object is left alone (the error is logged and swallowed). */
  function LoginCleanup(f: StorageFile): (o: StageOutcome)
    ensures !f.Parsed? ==> o == StageOutcome(f, false, 0)
    ensures f.Parsed? ==> o.file.Parsed?
    ensures f.Parsed? ==> forall k :: k in o.file.record.values <==> k in f.record.values && !MatchesAny(k, LoginKeywords)
    ensures f.Parsed? ==> forall k | k in o.file.record.values :: o.file.record.values[k] == f.record.values[k]
    ensures f.Parsed? ==> Subsequence(o.file.record.order, f.record.order)
    ensures f.Parsed? ==> o.counted == |set k | k in f.record.values && MatchesAny(k, LoginKeywords)|
    ensures o.written <==> o.counted > 0
    ensures !o.written ==> o.file == f
  {
    match f
    case Parsed(r) =>
      var out := RemoveMatching(r, LoginKeywords, {});
      RemoveCount(r, LoginKeywords, {});
      RemoveNothing(r, LoginKeywords, {});
      assert (set k | k in r.values && Doomed(k, LoginKeywords, {}))
          == (set k | k in r.values && MatchesAny(k, LoginKeywords));
      if |out.1| > 0 then StageOutcome(Parsed(out.0), true, |out.1|) else StageOutcome(f, false, 0)
    case _ => StageOutcome(f, false, 0)
  }

  /* ---------------------------------------------------------------- full reset, step 2 */

  const FullResetKeywords: seq<string> :=
    ["auth", "login", "session", "token", "credential", "device", "fingerprint", "tracking", "analytics"]

  /** The fresh values the full reset writes; all are generated by the caller. `version` is the
      random `"{10..15}.{0..9}.{0..9}"` text and `arch` is `platform.machine()`. */
  datatype TelemetryIds = TelemetryIds(
    machineHash: Digest, devDeviceId: Uuid, sqmId: Uuid, sessionId: Uuid, installationId: Uuid,
    clientId: Uuid, userId: Uuid, anonymousId: Uuid, rootInstallationId: Uuid, hardwareId: Uuid,
    platformId: Uuid, arch: string, version: string)

  const TelemetryKeys: seq<Key> := [
    "telemetry.machineId", "telemetry.devDeviceId", "telemetry.sqmId", "telemetry.sessionId",
    "telemetry.installationId", "telemetry.clientId", "telemetry.userId", "telemetry.anonymousId",
    "machineId", "deviceId", "installationId", "hardwareId", "platformId",
    "system.platform", "system.arch", "system.version"]

  /** The sixteen assignments of the full reset, in program order. The machine-id hash is
      written to both machine-id keys and the device id to both device-id keys. */
  function TelemetryTable(t: TelemetryIds): (w: seq<(Key, Value)>)
    ensures TableKeys(w) == TelemetryKeys
  {
    [("telemetry.machineId", Str(t.machineHash)),
     ("telemetry.devDeviceId", Str(t.devDeviceId)),
     ("telemetry.sqmId", Str(t.sqmId)),
     ("telemetry.sessionId", Str(t.sessionId)),
     ("telemetry.installationId", Str(t.installationId)),
     ("telemetry.clientId", Str(t.clientId)),
     ("telemetry.userId", Str(t.userId)),
     ("telemetry.anonymousId", Str(t.anonymousId)),
     ("machineId", Str(t.machineHash)),
     ("deviceId", Str(t.devDeviceId)),
     ("installationId", Str(t.rootInstallationId)),
     ("hardwareId", Str(t.hardwareId)),
     ("platformId", Str(t.platformId)),
     ("system.platform", Str("darwin")),
     ("system.arch", Str(t.arch)),
     ("system.version", Str(t.version))]
  }

  lemma TelemetryKeysDistinct()
    ensures Distinct(TelemetryKeys)
  {
  }

  /** Step 2 of the full reset. The sixteen identifiers are always written; unless chat is
      preserved, every key whose lower-cased form holds a full-reset keyword is then deleted,
      the keys just written included. A file that is not an object raises out of the reset,
      before anything is written to it. */
  function FullResetStorage(f: StorageFile, preserveChat: bool, t: TelemetryIds): (res: StageResult)
    ensures res.Aborted? <==> f.Malformed?
    ensures f.Missing? ==> res == Completed(Missing)
    ensures f.Parsed? ==> res.Completed? && res.file.Parsed?
    ensures f.Parsed? ==> forall k :: k in res.file.record.values <==>
      (k in f.record.values || k in TelemetryKeys) && (preserveChat || !MatchesAny(k, FullResetKeywords))
    ensures f.Parsed? ==> forall i | 0 <= i < |TelemetryTable(t)| && TelemetryTable(t)[i].0 in res.file.record.values ::
      res.file.record.values[TelemetryTable(t)[i].0] == TelemetryTable(t)[i].1
    ensures f.Parsed? ==> forall k | k in res.file.record.values && k !in TelemetryKeys ::
      res.file.record.values[k] == f.record.values[k]
  {
    match f
    case Missing => Completed(Missing)
    case Malformed => Aborted
    case Parsed(r) =>
      TelemetryKeysDistinct();
      var written := PutAll(r, TelemetryTable(t));
      if preserveChat then Completed(Parsed(written))
      else Completed(Parsed(RemoveMatching(written, FullResetKeywords, {}).0))
  }

  /* ---------------------------------------------------------------- hardware reset */

  const HardwareKeywords: seq<string> := [
    "hardware", "cpu", "gpu", "memory", "disk", "serial", "mac", "network", "screen",
    "resolution", "vendor", "model", "brand", "manufacturer", "processor"]

  /** The fresh values of the hardware-fingerprint reset, generated by the caller: `version`
      and `build` are its random version texts, `arch` is `platform.machine()`. */
  datatype HardwareIds = HardwareIds(
    machineHash: Digest, devDeviceId: Uuid, sqmId: Uuid, sessionId: Uuid, installationId: Uuid,
    clientId: Uuid, userId: Uuid, anonymousId: Uuid, rootMachineHash: Digest, deviceId: Uuid,
    rootInstallationId: Uuid, hardwareId: Uuid, platformId: Uuid, cpuId: Uuid, gpuId: Uuid,
    memoryId: Uuid, arch: string, version: string, build: string)

  const HardwareKeys: seq<Key> := [
    "telemetry.machineId", "telemetry.devDeviceId", "telemetry.sqmId", "telemetry.sessionId",
    "telemetry.installationId", "telemetry.clientId", "telemetry.userId", "telemetry.anonymousId",
    "machineId", "deviceId", "installationId", "hardwareId", "platformId", "cpuId", "gpuId",
    "memoryId", "system.platform", "system.arch", "system.version", "system.build",
    "system.locale", "system.timezone"]

  /** The `hardware_identifiers` dict, in its literal order. */
  function HardwareTable(h: HardwareIds): (w: seq<(Key, Value)>)
    ensures TableKeys(w) == HardwareKeys
  {
    [("telemetry.machineId", Str(h.machineHash)),
     ("telemetry.devDeviceId", Str(h.devDeviceId)),
     ("telemetry.sqmId", Str(h.sqmId)),
     ("telemetry.sessionId", Str(h.sessionId)),
     ("telemetry.installationId", Str(h.installationId)),
     ("telemetry.clientId", Str(h.clientId)),
     ("telemetry.userId", Str(h.userId)),
     ("telemetry.anonymousId", Str(h.anonymousId)),
     ("machineId", Str(h.rootMachineHash)),
     ("deviceId", Str(h.deviceId)),
     ("installationId", Str(h.rootInstallationId)),
     ("hardwareId", Str(h.hardwareId)),
     ("platformId", Str(h.platformId)),
     ("cpuId", Str(h.cpuId)),
     ("gpuId", Str(h.gpuId)),
     ("memoryId", Str(h.memoryId)),
     ("system.platform", Str("darwin")),
     ("system.arch", Str(h.arch)),
     ("system.version", Str(h.version)),
     ("system.build", Str(h.build)),
     ("system.locale", Str("en-US")),
     ("system.timezone", Str("America/New_York"))]
  }

  /** The keys differ in length, in their first character or in their fourth-last one. */
  lemma HardwareKeysDistinct()
    ensures Distinct(HardwareKeys)
  {
    forall i, j | 0 <= i < j < |HardwareKeys| ensures HardwareKeys[i] != HardwareKeys[j] {
      var a, b := HardwareKeys[i], HardwareKeys[j];
      assert |a| != |b| || a[0] != b[0] || a[|a| - 4] != b[|b| - 4];
    }
  }

  lemma HardwareRemovedCount(r: Record, written: Record, exempt: set<Key>)
    requires exempt == Elements(HardwareKeys)
    requires forall k :: k in written.values <==> k in r.values || k in HardwareKeys
    ensures |RemoveMatching(written, HardwareKeywords, exempt).1|
         == |set k | k in r.values && k !in HardwareKeys && MatchesAny(k, HardwareKeywords)|
  {
    RemoveCount(written, HardwareKeywords, exempt);
    assert (set k | k in written.values && Doomed(k, HardwareKeywords, exempt))
        == (set k | k in r.values && k !in HardwareKeys && MatchesAny(k, HardwareKeywords));
  }

  /** Step 2 of the hardware-fingerprint reset: write every table entry, then delete every
      other key whose lower-cased form holds a hardware keyword. The counter grows by the
      table size plus the number of deleted keys. Errors are logged and swallowed. */
  function HardwareResetStorage(f: StorageFile, h: HardwareIds): (o: StageOutcome)
    ensures !f.Parsed? ==> o == StageOutcome(f, false, 0)
    ensures f.Parsed? ==> o.file.Parsed? && o.written
    ensures f.Parsed? ==> forall i | 0 <= i < |HardwareTable(h)| ::
      HardwareTable(h)[i].0 in o.file.record.values && o.file.record.values[HardwareTable(h)[i].0] == HardwareTable(h)[i].1
    ensures f.Parsed? ==> forall k :: k in o.file.record.values <==>
      k in HardwareKeys || (k in f.record.values && !MatchesAny(k, HardwareKeywords))
    ensures f.Parsed? ==> forall k | k in o.file.record.values && k !in HardwareKeys ::
      o.file.record.values[k] == f.record.values[k]
    ensures f.Parsed? ==> (o.counted ==
      |HardwareKeys| + |set k | k in f.record.values && k !in HardwareKeys && MatchesAny(k, HardwareKeywords)|)
  {
    match f
    case Parsed(r) =>
      HardwareKeysDistinct();
      var written := PutAll(r, HardwareTable(h));
      var exempt := Elements(HardwareKeys);
      var out := RemoveMatching(written, HardwareKeywords, exempt);
      HardwareRemovedCount(r, written, exempt);
      StageOutcome(Parsed(out.0), true, |HardwareKeys| + |out.1|)
    case _ => StageOutcome(f, false, 0)
  }

  /* ---------------------------------------------------------------- chat clearing */

  const ChatKeywords: seq<string> := ["chat", "conversation", "history", "session"]

  /** Step 4 of the chat-history clearing: delete every key whose lower-cased form holds a chat
      keyword. The file is rewritten, and the counter grows by one, only when a key went. */
  function ClearChatStorage(f: StorageFile): (o: StageOutcome)
    ensures !f.Parsed? ==> o == StageOutcome(f, false, 0)
    ensures f.Parsed? ==> o.file.Parsed?
    ensures f.Parsed? ==> forall k :: k in o.file.record.values <==> k in f.record.values && !MatchesAny(k, ChatKeywords)
    ensures f.Parsed? ==> forall k | k in o.file.record.values :: o.file.record.values[k] == f.record.values[k]
    ensures f.Parsed? ==> Subsequence(o.file.record.order, f.record.order)
    ensures o.written <==> f.Parsed? && exists k | k in f.record.values :: MatchesAny(k, ChatKeywords)
    ensures o.counted == if o.written then 1 else 0
    ensures !o.written ==> o.file == f
  {
    match f
    case Parsed(r) =>
      var out := RemoveMatching(r, ChatKeywords, {});
      RemoveNothing(r, ChatKeywords, {});
      if |out.1| > 0 then StageOutcome(Parsed(out.0), true, 1) else StageOutcome(f, false, 0)
    case _ => StageOutcome(f, false, 0)
  }

  /* ---------------------------------------------------------------- repeated runs */

  /** A second login cleanup finds nothing left to remove: it neither rewrites the file nor
      counts anything. */
  lemma {:induction false} LoginCleanupSettles(f: StorageFile)
    ensures var o := LoginCleanup(f); LoginCleanup(o.file) == StageOutcome(o.file, false, 0)
  {
    var o := LoginCleanup(f);
    if f.Parsed? {
      RemoveNothing(o.file.record, LoginKeywords, {});
    }
  }

  /** A second chat clearing finds nothing left to remove. */
  lemma {:induction false} ClearChatSettles(f: StorageFile)
    ensures var o := ClearChatStorage(f); ClearChatStorage(o.file) == StageOutcome(o.file, false, 0)
  {
    var o := ClearChatStorage(f);
    if f.Parsed? {
      RemoveNothing(o.file.record, ChatKeywords, {});
    }
  }

  /** A second hardware reset with the same identifiers leaves the record exactly as the first
      left it, though it still rewrites the file and counts every table entry again. */
  lemma {:induction false} HardwareResetSettles(f: StorageFile, h: HardwareIds)
    ensures var o := HardwareResetStorage(f, h);
      HardwareResetStorage(o.file, h).file == o.file
      && (f.Parsed? ==> HardwareResetStorage(o.file, h).counted == |HardwareKeys|)
  {
    if f.Parsed? {
      var c := HardwareResetStorage(f, h).file.record;
      HardwareKeysDistinct();
      PutAllIdle(c, HardwareTable(h));
      HardwareLeavesNoMatch(f.record, h);
      RemoveNothing(c, HardwareKeywords, Elements(HardwareKeys));
    }
  }

  /** After a hardware reset no key is left for the hardware filter. */
  lemma HardwareLeavesNoMatch(r: Record, h: HardwareIds)
    ensures var c := HardwareResetStorage(Parsed(r), h).file.record;
      forall k | k in c.values :: !Doomed(k, HardwareKeywords, Elements(HardwareKeys))
  {
  }

  /* ---------------------------------------------------------------- the full reset as a whole */

  /** The record-editing steps of `perform_full_reset`, in program order: the telemetry rewrite
      (step 2), the login-identity cleanup (step 6), the hardware-fingerprint reset (step 7) and,
      unless chat is preserved, the chat-history clearing (step 9). Nothing between them touches
      storage.json. */
  function FullResetRecord(f: StorageFile, preserveChat: bool, t: TelemetryIds, h: HardwareIds): (res: StageResult)
    ensures res.Aborted? <==> f.Malformed?
    ensures f.Missing? ==> res == Completed(Missing)
    ensures f.Parsed? ==> res.Completed? && res.file.Parsed?
  {
    match FullResetStorage(f, preserveChat, t)
    case Aborted => Aborted
    case Completed(written) =>
      var hardware := HardwareResetStorage(LoginCleanup(written).file, h).file;
      Completed(if preserveChat then hardware else ClearChatStorage(hardware).file)
  }

  /** The fate of one key `k` under a full reset of the record `r`: it is present afterwards
      exactly when `SurvivesFullReset` says so, a hardware-table key then holds its table value,
      and any other key keeps the value it had. */
  lemma {:induction false} FullResetKey(r: Record, preserveChat: bool, t: TelemetryIds, h: HardwareIds, k: Key)
    ensures var d := FullResetRecord(Parsed(r), preserveChat, t, h).file.record;
      && (k in d.values <==> SurvivesFullReset(k, r, preserveChat))
      && (k in d.values && k !in HardwareKeys ==> d.values[k] == r.values[k])
  {
    var a := FullResetStorage(Parsed(r), preserveChat, t).file;
    var b := LoginCleanup(a).file;
    var c := HardwareResetStorage(b, h).file;
    var d := FullResetRecord(Parsed(r), preserveChat, t, h).file;
    assert d == if preserveChat then c else ClearChatStorage(c).file;
    StepTelemetry(r, preserveChat, t, k);
    StepLogin(a.record, k);
    StepHardware(b.record, h, k);
    if !preserveChat {
      StepChat(c.record, k);
    }
    TelemetryWithinHardware(k);
  }

  /** After a full reset, each entry of the hardware table that is still present holds the
      hardware reset's value. */
  lemma {:induction false} FullResetHardwareValue(r: Record, preserveChat: bool, t: TelemetryIds, h: HardwareIds, i: nat)
    requires i < |HardwareTable(h)|
    ensures var d := FullResetRecord(Parsed(r), preserveChat, t, h).file.record;
      HardwareTable(h)[i].0 in d.values ==> d.values[HardwareTable(h)[i].0] == HardwareTable(h)[i].1
  {
    var a := FullResetStorage(Parsed(r), preserveChat, t).file;
    var b := LoginCleanup(a).file;
    var c := HardwareResetStorage(b, h).file;
    var d := FullResetRecord(Parsed(r), preserveChat, t, h).file;
    assert d == if preserveChat then c else ClearChatStorage(c).file;
    StepHardwareValue(b.record, h, i);
    if !preserveChat {
      StepChat(c.record, HardwareTable(h)[i].0);
    }
  }

  lemma StepHardwareValue(b: Record, h: HardwareIds, i: nat)
    requires i < |HardwareTable(h)|
    ensures var c := HardwareResetStorage(Parsed(b), h).file.record;
      HardwareTable(h)[i].0 in c.values && c.values[HardwareTable(h)[i].0] == HardwareTable(h)[i].1
  {
  }

  lemma TelemetryWithinHardware(k: Key)
    ensures k in TelemetryKeys ==> k in HardwareKeys
  {
  }

  lemma StepTelemetry(r: Record, preserveChat: bool, t: TelemetryIds, k: Key)
    ensures var a := FullResetStorage(Parsed(r), preserveChat, t).file.record;
      && (k in a.values <==> (k in r.values || k in TelemetryKeys) && (preserveChat || !MatchesAny(k, FullResetKeywords)))
      && (k in a.values && k !in TelemetryKeys ==> a.values[k] == r.values[k])
  {
  }

  lemma StepLogin(a: Record, k: Key)
    ensures var b := LoginCleanup(Parsed(a)).file.record;
      && (k in b.values <==> k in a.values && !MatchesAny(k, LoginKeywords))
      && (k in b.values ==> b.values[k] == a.values[k])
  {
  }

  lemma StepHardware(b: Record, h: HardwareIds, k: Key)
    ensures var c := HardwareResetStorage(Parsed(b), h).file.record;
      && (k in c.values <==> k in HardwareKeys || (k in b.values && !MatchesAny(k, HardwareKeywords)))
      && (k in c.values && k !in HardwareKeys ==> c.values[k] == b.values[k])
  {
  }

  lemma StepChat(c: Record, k: Key)
    ensures var d := ClearChatStorage(Parsed(c)).file.record;
      && (k in d.values <==> k in c.values && !MatchesAny(k, ChatKeywords))
      && (k in d.values ==> d.values[k] == c.values[k])
  {
  }

  /** Which keys a full reset leaves in the record `r`: every hardware-table key unless the
      chat clearing takes it, and every other key of `r` that no filter on the way matches. */
  predicate SurvivesFullReset(k: Key, r: Record, preserveChat: bool) {
    if k in HardwareKeys then preserveChat || !MatchesAny(k, ChatKeywords)
    else
      k in r.values && !MatchesAny(k, LoginKeywords) && !MatchesAny(k, HardwareKeywords)
      && (preserveChat || (!MatchesAny(k, FullResetKeywords) && !MatchesAny(k, ChatKeywords)))
  }

  lemma LoginCleanupRecord(r: Record)
    ensures LoginCleanup(Parsed(r)).file == Parsed(RemoveMatching(r, LoginKeywords, {}).0)
  {
    RemoveNothing(r, LoginKeywords, {});
  }

  lemma ClearChatRecord(r: Record)
    ensures ClearChatStorage(Parsed(r)).file == Parsed(RemoveMatching(r, ChatKeywords, {}).0)
  {
    RemoveNothing(r, ChatKeywords, {});
  }

  /** The telemetry values of step 2 never reach the final record: every key they are written
      to is either deleted on the way or overwritten by the hardware reset, and the key order
      does not depend on them. */
  lemma {:induction false} TelemetryValuesOverwritten(f: StorageFile, preserveChat: bool, t1: TelemetryIds, t2: TelemetryIds, h: HardwareIds)
    ensures FullResetRecord(f, preserveChat, t1, h) == FullResetRecord(f, preserveChat, t2, h)
  {
    if f.Parsed? {
      FullResetOrderAgrees(f.record, preserveChat, t1, t2, h);
      FullResetValuesAgree(f.record, preserveChat, t1, t2, h);
    }
  }

  lemma {:induction false} FullResetOrderAgrees(r: Record, preserveChat: bool, t1: TelemetryIds, t2: TelemetryIds, h: HardwareIds)
    ensures FullResetRecord(Parsed(r), preserveChat, t1, h).file.record.order
         == FullResetRecord(Parsed(r), preserveChat, t2, h).file.record.order
  {
    var a1 := FullResetStorage(Parsed(r), preserveChat, t1).file.record;
    var a2 := FullResetStorage(Parsed(r), preserveChat, t2).file.record;
    OrderTelemetry(r, preserveChat, t1, t2);
    var b1 := LoginCleanup(Parsed(a1)).file.record;
    var b2 := LoginCleanup(Parsed(a2)).file.record;
    OrderLogin(a1, a2);
    var c1 := HardwareResetStorage(Parsed(b1), h).file.record;
    var c2 := HardwareResetStorage(Parsed(b2), h).file.record;
    OrderHardware(b1, b2, h);
    if !preserveChat {
      OrderChat(c1, c2);
    }
  }

  lemma {:induction false} FullResetValuesAgree(r: Record, preserveChat: bool, t1: TelemetryIds, t2: TelemetryIds, h: HardwareIds)
    ensures FullResetRecord(Parsed(r), preserveChat, t1, h).file.record.values
         == FullResetRecord(Parsed(r), preserveChat, t2, h).file.record.values
  {
    var d1 := FullResetRecord(Parsed(r), preserveChat, t1, h).file.record.values;
    var d2 := FullResetRecord(Parsed(r), preserveChat, t2, h).file.record.values;
    forall k ensures (k in d1 <==> k in d2) && (k in d1 ==> d1[k] == d2[k]) {
      FullResetValueAgrees(r, preserveChat, t1, t2, h, k);
    }
    SameEntries(d1, d2);
  }

  lemma SameEntries(d1: map<Key, Value>, d2: map<Key, Value>)
    requires forall k :: (k in d1 <==> k in d2) && (k in d1 ==> d1[k] == d2[k])
    ensures d1 == d2
  {
  }

  lemma {:induction false} FullResetValueAgrees(r: Record, preserveChat: bool, t1: TelemetryIds, t2: TelemetryIds, h: HardwareIds, k: Key)
    ensures var d1 := FullResetRecord(Parsed(r), preserveChat, t1, h).file.record.values;
      var d2 := FullResetRecord(Parsed(r), preserveChat, t2, h).file.record.values;
      (k in d1 <==> k in d2) && (k in d1 ==> d1[k] == d2[k])
  {
    FullResetKeyAgrees(r, preserveChat, t1, t2, h, k);
    if k in HardwareKeys {
      FullResetHardwareKeyAgrees(r, preserveChat, t1, t2, h, k);
    }
  }

  lemma {:induction false} FullResetHardwareKeyAgrees(r: Record, preserveChat: bool, t1: TelemetryIds, t2: TelemetryIds, h: HardwareIds, k: Key)
    requires k in HardwareKeys
    ensures var d1 := FullResetRecord(Parsed(r), preserveChat, t1, h).file.record.values;
      var d2 := FullResetRecord(Parsed(r), preserveChat, t2, h).file.record.values;
      k in d1 && k in d2 ==> d1[k] == d2[k]
  {
    var i :| 0 <= i < |HardwareKeys| && HardwareKeys[i] == k;
    assert TableKeys(HardwareTable(h))[i] == k;
    FullResetHardwareAgrees(r, preserveChat, t1, t2, h, i);
  }

  lemma {:induction false} FullResetKeyAgrees(r: Record, preserveChat: bool, t1: TelemetryIds, t2: TelemetryIds, h: HardwareIds, k: Key)
    ensures var d1 := FullResetRecord(Parsed(r), preserveChat, t1, h).file.record.values;
      var d2 := FullResetRecord(Parsed(r), preserveChat, t2, h).file.record.values;
      (k in d1 <==> k in d2) && (k in d1 && k !in HardwareKeys ==> d1[k] == d2[k])
  {
    FullResetKey(r, preserveChat, t1, h, k);
    FullResetKey(r, preserveChat, t2, h, k);
  }

  lemma {:induction false} FullResetHardwareAgrees(r: Record, preserveChat: bool, t1: TelemetryIds, t2: TelemetryIds, h: HardwareIds, i: nat)
    requires i < |HardwareTable(h)|
    ensures var d1 := FullResetRecord(Parsed(r), preserveChat, t1, h).file.record.values;
      var d2 := FullResetRecord(Parsed(r), preserveChat, t2, h).file.record.values;
      var k := HardwareTable(h)[i].0;
      k in d1 && k in d2 ==> d1[k] == d2[k]
  {
    FullResetHardwareValue(r, preserveChat, t1, h, i);
    FullResetHardwareValue(r, preserveChat, t2, h, i);
  }

  lemma OrderTelemetry(r: Record, preserveChat: bool, t1: TelemetryIds, t2: TelemetryIds)
    ensures FullResetStorage(Parsed(r), preserveChat, t1).file.record.order
         == FullResetStorage(Parsed(r), preserveChat, t2).file.record.order
  {
    TelemetryKeysDistinct();
    PutAllOrder(r, r, TelemetryTable(t1), TelemetryTable(t2));
  }

  lemma OrderLogin(a1: Record, a2: Record)
    requires a1.order == a2.order
    ensures LoginCleanup(Parsed(a1)).file.record.order == LoginCleanup(Parsed(a2)).file.record.order
  {
    LoginCleanupRecord(a1);
    LoginCleanupRecord(a2);
  }

  lemma OrderHardware(b1: Record, b2: Record, h: HardwareIds)
    requires b1.order == b2.order
    ensures HardwareResetStorage(Parsed(b1), h).file.record.order == HardwareResetStorage(Parsed(b2), h).file.record.order
  {
    HardwareKeysDistinct();
    PutAllOrder(b1, b2, HardwareTable(h), HardwareTable(h));
  }

  lemma OrderChat(c1: Record, c2: Record)
    requires c1.order == c2.order
    ensures ClearChatStorage(Parsed(c1)).file.record.order == ClearChatStorage(Parsed(c2)).file.record.order
  {
    ClearChatRecord(c1);
    ClearChatRecord(c2);
  }

  /* ---------------------------------------------------------------- concrete consequences */

  /** Without chat preservation, step 2 deletes three of the identifiers it has just written,
      because their names hold "device" or "session". */
  lemma {:induction false} FullResetDeletesFreshIds(r: Record, t: TelemetryIds)
    ensures var a := FullResetStorage(Parsed(r), false, t).file.record.values;
      "telemetry.devDeviceId" !in a && "telemetry.sessionId" !in a && "deviceId" !in a
  {
    DevDeviceIdMatches();
    SessionIdMatches();
    DeviceIdMatches();
  }

  /** ... while the machine-id and SQM keys keep their fresh values. */
  lemma {:induction false} FullResetKeepsMachineIds(r: Record, t: TelemetryIds)
    ensures var a := FullResetStorage(Parsed(r), false, t).file.record.values;
      && "telemetry.machineId" in a && a["telemetry.machineId"] == Str(t.machineHash)
      && "machineId" in a && a["machineId"] == Str(t.machineHash)
      && "telemetry.sqmId" in a && a["telemetry.sqmId"] == Str(t.sqmId)
  {
    var table := TelemetryTable(t);
    assert table[0] == ("telemetry.machineId", Str(t.machineHash));
    assert table[8] == ("machineId", Str(t.machineHash));
    assert table[2] == ("telemetry.sqmId", Str(t.sqmId));
    TelemetryMachineIdDoesNotMatch();
    MachineIdDoesNotMatch();
    SqmIdDoesNotMatch();
    StepTelemetryValue(r, false, t, 0);
    StepTelemetryValue(r, false, t, 8);
    StepTelemetryValue(r, false, t, 2);
  }

  /** The record `{"telemetry.machineId": "abc", "other": "x"}` after step 2 without chat
      preservation: the unrelated key survives unchanged, the machine id is replaced, and the
      device and session ids just written are gone again. */
  lemma {:induction false} FullResetSmallRecord(r: Record, t: TelemetryIds)
    requires r.order == ["telemetry.machineId", "other"]
    requires r.values == map["telemetry.machineId" := Str("abc"), "other" := Str("x")]
    ensures var a := FullResetStorage(Parsed(r), false, t).file.record.values;
      && "other" in a && a["other"] == Str("x")
      && "telemetry.machineId" in a && a["telemetry.machineId"] == Str(t.machineHash)
      && "telemetry.devDeviceId" !in a && "deviceId" !in a && "telemetry.sessionId" !in a
  {
    FullResetKeepsMachineIds(r, t);
    FullResetDeletesFreshIds(r, t);
    SmallRecordOther(r, t);
  }

  lemma {:induction false} SmallRecordOther(r: Record, t: TelemetryIds)
    requires r.values == map["telemetry.machineId" := Str("abc"), "other" := Str("x")]
    ensures var a := FullResetStorage(Parsed(r), false, t).file.record.values;
      "other" in a && a["other"] == Str("x")
  {
    OtherDoesNotMatch();
    OtherIsNoTelemetryKey();
    StepTelemetry(r, false, t, "other");
  }

  lemma OtherIsNoTelemetryKey()
    ensures "other" !in TelemetryKeys
  {
  }

  lemma OtherDoesNotMatch()
    ensures !MatchesAny("other", FullResetKeywords)
  {
    KeyMatchesNone("other", "other", FullResetKeywords, [0, 0, 0, 0, 0, 0, 0, 0, 0]);
  }

  lemma DevDeviceIdMatches()
    ensures MatchesAny("telemetry.devDeviceId", FullResetKeywords)
  {
    KeyMatches("telemetry.devDeviceId", "telemetry.devdeviceid", FullResetKeywords, 5, 13);
  }

  lemma SessionIdMatches()
    ensures MatchesAny("telemetry.sessionId", FullResetKeywords)
  {
    KeyMatches("telemetry.sessionId", "telemetry.sessionid", FullResetKeywords, 2, 10);
  }

  lemma DeviceIdMatches()
    ensures MatchesAny("deviceId", FullResetKeywords)
  {
    KeyMatches("deviceId", "deviceid", FullResetKeywords, 5, 0);
  }

  lemma TelemetryMachineIdDoesNotMatch()
    ensures !MatchesAny("telemetry.machineId", FullResetKeywords)
  {
    KeyMatchesNone("telemetry.machineId", "telemetry.machineid", FullResetKeywords, [0, 0, 0, 0, 0, 0, 0, 1, 0]);
  }

  lemma MachineIdDoesNotMatch()
    ensures !MatchesAny("machineId", FullResetKeywords)
  {
    KeyMatchesNone("machineId", "machineid", FullResetKeywords, [0, 0, 0, 0, 0, 0, 0, 0, 0]);
  }

  lemma SqmIdDoesNotMatch()
    ensures !MatchesAny("telemetry.sqmId", FullResetKeywords)
  {
    KeyMatchesNone("telemetry.sqmId", "telemetry.sqmid", FullResetKeywords, [0, 0, 0, 0, 0, 0, 0, 1, 0]);
  }

  lemma StepTelemetryValue(r: Record, preserveChat: bool, t: TelemetryIds, i: nat)
    requires i < |TelemetryTable(t)|
    requires preserveChat || !MatchesAny(TelemetryTable(t)[i].0, FullResetKeywords)
    ensures var a := FullResetStorage(Parsed(r), preserveChat, t).file.record;
      TelemetryTable(t)[i].0 in a.values && a.values[TelemetryTable(t)[i].0] == TelemetryTable(t)[i].1
  {
    assert TelemetryKeys[i] == TelemetryTable(t)[i].0;
  }

  /** "mac" occurs in "machineId", yet the hardware reset keeps that key with its fresh value:
      table keys are exempt from the hardware filter. */
  lemma {:induction false} HardwareKeepsMachineId(r: Record, h: HardwareIds)
    ensures MatchesAny("machineId", HardwareKeywords)
    ensures var c := HardwareResetStorage(Parsed(r), h).file.record.values;
      "machineId" in c && c["machineId"] == Str(h.rootMachineHash)
  {
    MachineIdHoldsMac();
    HardwareTableMachineId(h);
    StepHardwareValue(r, h, 8);
  }

  lemma HardwareTableMachineId(h: HardwareIds)
    ensures HardwareTable(h)[8] == ("machineId", Str(h.rootMachineHash))
  {
  }

  lemma MachineIdHoldsMac()
    ensures MatchesAny("machineId", HardwareKeywords)
  {
    KeyMatches("machineId", "machineid", HardwareKeywords, 6, 0);
  }
}

=== FILE: text.dfy ===
/**
 * The handful of Python string operations the reset engine relies on: `str.lower()`,
 * the `in` substring test, `strip()`, `split()`, `startswith()`/`endswith()`,
 * `isdigit()` and `str(int)`, each stated over `seq<char>`.
 */
module Text {

  /** Lower-casing of one character. Every character whose Python lower-case form contains an
      ASCII character is mapped exactly as `str.lower()` maps it: the ASCII capitals, KELVIN
      SIGN (to "k") and LATIN CAPITAL I WITH DOT ABOVE (to "i" + COMBINING DOT ABOVE). Every
      other character is kept as it is. */
  function LowerChar(c: char): string {
    if 'A' <= c <= 'Z' then [(c as int + 32) as char]
    else if c == '\U{212A}' then "k"
    else if c == '\U{130}' then "i\U{307}"
    else [c]
  }

  /** Python's `s.lower()`, exact wherever the result is compared with, or searched for,
      ASCII text, which is how the program uses it. */
  function Lower(s: string): string {
    if |s| == 0 then "" else LowerChar(s[0]) + Lower(s[1..])
  }

  /** Text made of characters `Lower` leaves alone (no ASCII capitals, no KELVIN SIGN,
      no dotted capital I): every keyword of the program is of this kind. */
  predicate IsLowered(s: string) {
    forall i | 0 <= i < |s| :: !('A' <= s[i] <= 'Z') && s[i] != '\U{212A}' && s[i] != '\U{130}'
  }

  lemma {:induction false} LowerOfLowered(s: string)
    requires IsLowered(s)
    ensures Lower(s) == s
  {
    if |s| > 0 {
      assert IsLowered(s[1..]) by {
        forall i | 0 <= i < |s[1..]| ensures s[1..][i] == s[i + 1] { }
      }
      LowerOfLowered(s[1..]);
      assert s == [s[0]] + s[1..];
    }
  }

  lemma {:induction false} LowerConcat(a: string, b: string)
    ensures Lower(a + b) == Lower(a) + Lower(b)
  {
    if |a| == 0 {
      assert a + b == b;
    } else {
      assert (a + b)[1..] == a[1..] + b;
      LowerConcat(a[1..], b);
    }
  }

  /** `Lower` on one character of a text without a dotted capital I. */
  function LowerOne(c: char): char {
    if 'A' <= c <= 'Z' then (c as int + 32) as char else if c == '\U{212A}' then 'k' else c
  }

  /** Without a dotted capital I, lower-casing works character by character; this is how
      the lower-cased form of a concrete key is worked out. */
  lemma {:induction false} LowerPointwise(s: string)
    requires '\U{130}' !in s
    ensures |Lower(s)| == |s|
    ensures forall i | 0 <= i < |s| :: Lower(s)[i] == LowerOne(s[i])
  {
    if |s| > 0 {
      LowerPointwise(s[1..]);
      assert '\U{130}' != s[0];
    }
  }

  /** Python's `sub in s`; the empty text occurs in every text. */
  predicate Contains(s: string, sub: string)
    decreases |s|
  {
    sub <= s || (|s| > 0 && Contains(s[1..], sub))
  }

  /** `Contains` is the usual "occurs at some offset". */
  lemma {:induction false} ContainsAt(s: string, sub: string)
    ensures Contains(s, sub) <==> exists i :: 0 <= i <= |s| - |sub| && sub <= s[i..]
  {
    if Contains(s, sub) {
      var i := ContainsOffset(s, sub);
    }
    if exists i :: 0 <= i <= |s| - |sub| && sub <= s[i..] {
      var i :| 0 <= i <= |s| - |sub| && sub <= s[i..];
      OffsetContains(s, sub, i);
    }
  }

  /** An offset at which `sub` occurs in `s`. */
  ghost function ContainsOffset(s: string, sub: string): (i: nat)
    requires Contains(s, sub)
    ensures i <= |s| - |sub| && sub <= s[i..]
    decreases |s|
  {
    if sub <= s then
      assert s[0..] == s;
      0
    else
      var i := ContainsOffset(s[1..], sub);
      TailSlice(s, i);
      i + 1
  }

  lemma {:induction false} OffsetContains(s: string, sub: string, i: nat)
    requires i <= |s| - |sub| && sub <= s[i..]
    ensures Contains(s, sub)
    decreases i
  {
    if i == 0 {
      assert s[0..] == s;
    } else {
      TailSlice(s, i - 1);
      OffsetContains(s[1..], sub, i - 1);
    }
  }

  lemma TailSlice(s: string, i: nat)
    requires i < |s|
    ensures s[1..][i..] == s[i + 1..]
  {
  }

  lemma {:induction false} ContainsInLeft(a: string, b: string, sub: string)
    requires Contains(a, sub)
    ensures Contains(a + b, sub)
    decreases |a|
  {
    if sub <= a {
      assert a <= a + b;
    } else {
      assert (a + b)[1..] == a[1..] + b;
      ContainsInLeft(a[1..], b, sub);
    }
  }

  lemma {:induction false} ContainsInRight(a: string, b: string, sub: string)
    requires Contains(b, sub)
    ensures Contains(a + b, sub)
    decreases |a|
  {
    if |a| > 0 {
      assert (a + b)[1..] == a[1..] + b;
      ContainsInRight(a[1..], b, sub);
    } else {
      assert a + b == b;
    }
  }

  /** An occurrence at a known offset. */
  lemma ContainsAtOffset(s: string, sub: string, i: nat)
    requires i <= |s| && sub <= s[i..]
    ensures Contains(s, sub)
  {
    ContainsAt(s, sub);
  }

  /** A text in which two adjacent characters of `sub` never appear side by side does not
      contain `sub`. */
  lemma NoAdjacentPair(s: string, sub: string, j: nat)
    requires j + 1 < |sub|
    requires forall i | 0 <= i < |s| - 1 :: !(s[i] == sub[j] && s[i + 1] == sub[j + 1])
    ensures !Contains(s, sub)
  {
    forall i | 0 <= i <= |s| - |sub| ensures !(sub <= s[i..]) {
      assert s[i..][j] == s[i + j] && s[i..][j + 1] == s[i + j + 1];
    }
    ContainsAt(s, sub);
  }

  /** `!ContainsAny(s, keywords)`, shown keyword by keyword: for keyword `n` the characters at
      `pairs[n]` and `pairs[n] + 1` never appear side by side in `s`. */
  lemma NoKeywordByPairs(s: string, keywords: seq<string>, pairs: seq<nat>)
    requires |pairs| == |keywords|
    requires forall n | 0 <= n < |keywords| :: pairs[n] + 1 < |keywords[n]|
    requires forall n, i | 0 <= n < |keywords| && 0 <= i < |s| - 1 ::
      !(s[i] == keywords[n][pairs[n]] && s[i + 1] == keywords[n][pairs[n] + 1])
    ensures !ContainsAny(s, keywords)
  {
    forall n | 0 <= n < |keywords| ensures !Contains(s, keywords[n]) {
      NoAdjacentPair(s, keywords[n], pairs[n]);
    }
  }

  /** Python's `any(k in s for k in keywords)`. */
  predicate ContainsAny(s: string, keywords: seq<string>) {
    exists k | k in keywords :: Contains(s, k)
  }

  /** The generator `any(k in s for k in keywords)` as Python runs it: the keywords in order,
      stopping at the first one that occurs. */
  function AnyInOrder(s: string, keywords: seq<string>): bool
    decreases |keywords|
  {
    if |keywords| == 0 then false
    else Contains(s, keywords[0]) || AnyInOrder(s, keywords[1..])
  }

  /** Running the generator in order answers whether some keyword occurs. */
  lemma {:induction false} AnyInOrderIff(s: string, keywords: seq<string>)
    ensures AnyInOrder(s, keywords) <==> ContainsAny(s, keywords)
    decreases |keywords|
  {
    if |keywords| > 0 {
      AnyInOrderIff(s, keywords[1..]);
      assert keywords[0] in keywords;
      assert forall k | k in keywords :: k == keywords[0] || k in keywords[1..];
      assert forall k | k in keywords[1..] :: k in keywords;
    }
  }

  /** `any(k in text.lower() for k in keywords)`: the keyword test every stage applies. */
  predicate MatchesAny(text: string, keywords: seq<string>) {
    ContainsAny(Lower(text), keywords)
  }

  /** A key matches a keyword list when its lower-cased form, spelled out character by
      character, holds keyword `n` at offset `at`. */
  lemma KeyMatches(s: string, lowered: string, keywords: seq<string>, n: nat, at: nat)
    requires '\U{130}' !in s && |lowered| == |s|
    requires forall i | 0 <= i < |s| :: LowerOne(s[i]) == lowered[i]
    requires n < |keywords| && at <= |lowered| && keywords[n] <= lowered[at..]
    ensures MatchesAny(s, keywords)
  {
    LowerPointwise(s);
    assert Lower(s) == lowered;
    ContainsAtOffset(lowered, keywords[n], at);
  }

  /** A key matches no keyword of a list when, in its lower-cased form, the characters at
      `pairs[n]` and `pairs[n] + 1` of keyword `n` never stand side by side. */
  lemma KeyMatchesNone(s: string, lowered: string, keywords: seq<string>, pairs: seq<nat>)
    requires '\U{130}' !in s && |lowered| == |s|
    requires forall i | 0 <= i < |s| :: LowerOne(s[i]) == lowered[i]
    requires |pairs| == |keywords|
    requires forall n | 0 <= n < |keywords| :: pairs[n] + 1 < |keywords[n]|
    requires forall n, i | 0 <= n < |keywords| && 0 <= i < |lowered| - 1 ::
      !(lowered[i] == keywords[n][pairs[n]] && lowered[i + 1] == keywords[n][pairs[n] + 1])
    ensures !MatchesAny(s, keywords)
  {
    LowerPointwise(s);
    assert Lower(s) == lowered;
    NoKeywordByPairs(lowered, keywords, pairs);
  }

  predicate StartsWith(s: string, prefix: string) {
    prefix <= s
  }

  predicate EndsWith(s: string, suffix: string) {
    |suffix| <= |s| && s[|s| - |suffix|..] == suffix
  }

  /** The characters Python's argument-less `str.strip()` removes. */
  const Whitespace: set<char> := {
    '\t', '\n', '\U{0B}', '\U{0C}', '\r', '\U{1C}', '\U{1D}', '\U{1E}', '\U{1F}', ' ',
    '\U{85}', '\U{A0}', '\U{1680}', '\U{2000}', '\U{2001}', '\U{2002}', '\U{2003}',
    '\U{2004}', '\U{2005}', '\U{2006}', '\U{2007}', '\U{2008}', '\U{2009}', '\U{200A}',
    '\U{2028}', '\U{2029}', '\U{202F}', '\U{205F}', '\U{3000}'
  }

  predicate AllIn(s: string, chars: set<char>) {
    forall i | 0 <= i < |s| :: s[i] in chars
  }

  /** Python's `s.strip(chars)`: drop every leading and trailing character of `chars`. */
  function Trim(s: string, chars: set<char>): (r: string)
    ensures |r| == 0 || (r[0] !in chars && r[|r| - 1] !in chars)
    ensures exists pre, post :: s == pre + r + post && AllIn(pre, chars) && AllIn(post, chars)
  {
    TrimRight(TrimLeft(s, chars), chars)
  }

  function TrimLeft(s: string, chars: set<char>): (r: string)
    ensures |r| == 0 || r[0] !in chars
    ensures exists pre :: s == pre + r && AllIn(pre, chars)
  {
    if |s| > 0 && s[0] in chars then
      var r := TrimLeft(s[1..], chars);
      var pre :| s[1..] == pre + r && AllIn(pre, chars);
      PrefixGrows(s, pre, r, chars);
      r
    else
      assert s == "" + s;
      s
  }

  lemma PrefixGrows(s: string, pre: string, r: string, chars: set<char>)
    requires |s| > 0 && s[0] in chars && s[1..] == pre + r && AllIn(pre, chars)
    ensures s == ([s[0]] + pre) + r && AllIn([s[0]] + pre, chars)
  {
    var longer := [s[0]] + pre;
    forall i | 0 <= i < |longer| ensures longer[i] in chars {
      if i > 0 {
        assert longer[i] == pre[i - 1];
      }
    }
    assert s == [s[0]] + s[1..];
  }

  function TrimRight(s: string, chars: set<char>): (r: string)
    ensures |r| == 0 || r[|r| - 1] !in chars
    ensures exists post :: s == r + post && AllIn(post, chars)
    ensures |s| > 0 && s[0] !in chars ==> |r| > 0 && r[0] == s[0]
  {
    if |s| > 0 && s[|s| - 1] in chars then
      var r := TrimRight(s[..|s| - 1], chars);
      var post :| s[..|s| - 1] == r + post && AllIn(post, chars);
      SuffixGrows(s, r, post, chars);
      r
    else
      assert s == s + "";
      s
  }

  lemma SuffixGrows(s: string, r: string, post: string, chars: set<char>)
    requires |s| > 0 && s[|s| - 1] in chars && s[..|s| - 1] == r + post && AllIn(post, chars)
    ensures s == r + (post + [s[|s| - 1]]) && AllIn(post + [s[|s| - 1]], chars)
  {
    var longer := post + [s[|s| - 1]];
    forall i | 0 <= i < |longer| ensures longer[i] in chars {
      if i < |post| {
        assert longer[i] == post[i];
      }
    }
    assert s == s[..|s| - 1] + [s[|s| - 1]];
  }

  /** Stripping a text whose end characters are not stripped leaves it as it is. */
  lemma TrimIdle(s: string, chars: set<char>)
    requires |s| == 0 || (s[0] !in chars && s[|s| - 1] !in chars)
    ensures Trim(s, chars) == s
  {
    var r := Trim(s, chars);
    var pre, post :| s == pre + r + post && AllIn(pre, chars) && AllIn(post, chars);
    assert s == r;
  }

  /** No visible ASCII character is whitespace. */
  lemma VisibleIsNotWhitespace(c: char)
    requires '!' <= c <= '~'
    ensures c !in Whitespace
  {
  }

  /** Python's `s.strip()`. */
  function Strip(s: string): string {
    Trim(s, Whitespace)
  }

  /** Python's `s.split(sep)` for a one-character separator: never empty, and no piece
      contains the separator. */
  function Split(s: string, sep: char): (parts: seq<string>)
    ensures |parts| >= 1
    ensures forall i | 0 <= i < |parts| :: sep !in parts[i]
    decreases |s|
  {
    if |s| == 0 then [""]
    else if s[0] == sep then [""] + Split(s[1..], sep)
    else
      var rest := Split(s[1..], sep);
      [[s[0]] + rest[0]] + rest[1..]
  }

  /** Python's `sep.join(parts)`. */
  function Join(parts: seq<string>, sep: char): string
    requires |parts| >= 1
    decreases |parts|
  {
    if |parts| == 1 then parts[0] else parts[0] + [sep] + Join(parts[1..], sep)
  }

  /** Splitting and joining are inverse: `sep.join(s.split(sep)) == s`. */
  lemma {:induction false} JoinSplit(s: string, sep: char)
    ensures Join(Split(s, sep), sep) == s
    decreases |s|
  {
    if |s| == 0 {
    } else if s[0] == sep {
      JoinSplit(s[1..], sep);
      assert s == [sep] + s[1..];
    } else {
      var rest := Split(s[1..], sep);
      JoinSplit(s[1..], sep);
      var parts := [[s[0]] + rest[0]] + rest[1..];
      assert parts[1..] == rest[1..];
      if |rest| == 1 {
        assert s == [s[0]] + rest[0];
      } else {
        assert Join(rest, sep) == rest[0] + [sep] + Join(rest[1..], sep);
        assert s == [s[0]] + s[1..];
      }
    }
  }

  /** Joining pieces free of the separator and splitting again gives the pieces back. */
  lemma {:induction false} SplitJoin(parts: seq<string>, sep: char)
    requires |parts| >= 1
    requires forall i | 0 <= i < |parts| :: sep !in parts[i]
    ensures Split(Join(parts, sep), sep) == parts
    decreases |parts|
  {
    if |parts| == 1 {
      SplitWithoutSeparator(parts[0], sep);
    } else {
      SplitJoin(parts[1..], sep);
      SplitAfterPiece(parts[0], sep, Join(parts[1..], sep));
    }
  }

  /** A join begins with the first piece and ends with the last. */
  lemma {:induction false} JoinEnds(parts: seq<string>, sep: char)
    requires |parts| >= 1
    ensures StartsWith(Join(parts, sep), parts[0])
    ensures EndsWith(Join(parts, sep), parts[|parts| - 1])
    decreases |parts|
  {
    if |parts| > 1 {
      JoinEnds(parts[1..], sep);
      var rest := Join(parts[1..], sep);
      var last := parts[|parts| - 1];
      assert Join(parts, sep) == parts[0] + [sep] + rest;
      assert Join(parts, sep)[|Join(parts, sep)| - |last|..] == rest[|rest| - |last|..];
    }
  }

  /** A piece that holds no separator is not split. */
  lemma {:induction false} SplitWithoutSeparator(s: string, sep: char)
    requires sep !in s
    ensures Split(s, sep) == [s]
    decreases |s|
  {
    if |s| > 0 {
      SplitWithoutSeparator(s[1..], sep);
      assert s == [s[0]] + s[1..];
    }
  }

  /** Splitting a text that starts with a separator-free piece and a separator. */
  lemma {:induction false} SplitAfterPiece(piece: string, sep: char, rest: string)
    requires sep !in piece
    ensures Split(piece + [sep] + rest, sep) == [piece] + Split(rest, sep)
    decreases |piece|
  {
    if |piece| == 0 {
      assert piece + [sep] + rest == [sep] + rest;
    } else {
      assert (piece + [sep] + rest)[1..] == piece[1..] + [sep] + rest;
      SplitAfterPiece(piece[1..], sep, rest);
      assert piece == [piece[0]] + piece[1..];
    }
  }

  predicate IsDigitChar(c: char) {
    '0' <= c <= '9'
  }

  /** Python's `s.isdigit()` restricted to the ASCII digits: non-empty and digits only. */
  predicate IsDigits(s: string) {
    |s| > 0 && forall i | 0 <= i < |s| :: IsDigitChar(s[i])
  }

  /** The value of a text of ASCII digits. */
  function DecimalValue(s: string): nat
    requires forall i | 0 <= i < |s| :: IsDigitChar(s[i])
    decreases |s|
  {
    if |s| == 0 then 0
    else
      assert IsDigitChar(s[|s| - 1]);
      DecimalValue(s[..|s| - 1]) * 10 + (s[|s| - 1] as int - '0' as int)
  }

  /** Python's `str(n)` for a natural number. */
  function NatToDecimal(n: nat): (s: string)
    ensures IsDigits(s)
    ensures DecimalValue(s) == n
  {
    if n < 10 then [('0' as int + n) as char]
    else
      var s := NatToDecimal(n / 10) + [('0' as int + n % 10) as char];
      assert s[..|s| - 1] == NatToDecimal(n / 10);
      s
  }
}
